=== FILE: README.md ===
# CampusUtilities backend, modelled in Dafny

This project models the request-handling core of the CampusUtilities campus
backend, a Node/Express/Mongoose service. It covers:

- user accounts with a role (student, staff or admin);
- per-user weekly class timetables;
- complaints;
- lost-and-found postings;
- announcements.

Each MongoDB collection becomes an in-memory `Store`. A store is the
documents in natural order plus a logical clock. The clock hands out fresh
ids and the `createdAt` and `resolvedAt` stamps.

Each route handler becomes a pure function from the store and the request to
the reply (status code and message) and the new store. The model keeps the
handlers' own branches, messages and status codes:

- A Mongoose validation failure on `save()` is caught and becomes a 500,
  with the store unchanged.
- `findOne` is the first match in natural order.
- `find(...).sort(...)` is a filter followed by a stable sort.
- `$group` with `$sum: 1` is a count.

JSON Web Token signing and verification, and password hashing and
comparison, are the oracle `Tokens.Crypto`, handed in by the caller. The
model never looks inside a token.

Modules:

- `Base`: optional values, JavaScript truthiness (`undefined` and `''` are
  falsy) and replies.
- `Strings`: `trim`, `replace` with a string pattern, `split` on one
  character, and the code-point order MongoDB sorts strings in.
- `Collection`: the store and its generic operations and lemmas.
- `Users` and `Tokens`: accounts, the account fallback lookups, and the
  token and password oracles.
- `AuthGate`: `auth` and `adminAuth` (`backend/middleware/auth.js`).
- `ClaimsGate`: `authMiddleware` (`backend/middleware/authMiddleware.js`).
- `AuthRoutes`: register and login (`backend/routes/authRoutes.js`).
- `TimetableSchema` and `TimetableRoutes`: the slot store.
- `ComplaintSchema` and `ComplaintRoutes`: complaints.
- `LostFoundSchema` and `LostFoundRoutes`: lost-and-found postings.
- `Announcements`: announcements.
- `Routing`: which handler Express runs when two are registered on the same
  path.

The main result is `TimetableRoutes.RunPreservesValid`. From a valid
timetable, any sequence of requests to the reachable timetable routes keeps
these true:

- at most one class per (user, day, time);
- unique ids;
- entries that conform to the schema.

Complaints and lost-and-found postings have the same kind of invariant.
Under the complaint invariant every stored priority is one of the enum
values. Without the correction under "## Findings" that would not hold.

Two route paths are registered twice: `PUT /:id/status` in
`backend/routes/complaints.js` and `DELETE /:id` in
`backend/routes/timetable.js`. In each case the second handler is modelled as
a separate member: `ComplaintRoutes.SetStatusAdmin` and
`TimetableRoutes.DeleteOwnedClass`. `Routing` proves that neither is ever
dispatched. The live handlers are `ComplaintRoutes.SetStatus` and
`TimetableRoutes.DeleteClassById`.

A handler behind `auth` receives the hydrated `req.user` as an
`Option<Principal>`. It is `None` when the token is valid but its account no
longer exists. A handler that then reads `req.user._id` throws, so the model
answers 500.

Ids are unique within a collection, as `_id` is in MongoDB. The complaint
and lost-and-found handlers that pick a document by id and then check its
owner take that uniqueness (`UniqueBy(st.items, Id)`) as a precondition.

## Model

| member | source | states |
|---|---|---|
| Strings.Trim | backend/models/Timetable.js:18-22 | `trim: true` stores the input with its leading and trailing white space cut off: a contiguous slice of the input, everything before and after it white space, and no white space at either end of the slice |
| Strings.TrimIdempotent | backend/models/Timetable.js:18-30 | trimming a stored (already trimmed) value again changes nothing |
| Strings.StripFirst | backend/middleware/auth.js:9 | `replace('Bearer ', '')` removes the first occurrence of the pattern wherever it is and leaves a string without it unchanged |
| Strings.Split | backend/middleware/authMiddleware.js:5 | `split(' ')` yields at least one field, none containing the separator, and joining them gives back the input |
| Strings.SplitJoin | backend/middleware/authMiddleware.js:5 | splitting undoes joining when no field contains the separator |
| Strings.SecondField | backend/middleware/authMiddleware.js:5 | `split(' ')[1]` is undefined exactly when the header has no space; otherwise it is the second field of the split |
| Strings.SecondFieldBetweenSeparators | backend/middleware/authMiddleware.js:5 | the second field is the text between the first separator and the next one or the end of the string |
| Strings.FirstField | backend/routes/authRoutes.js:37 | `split('@')[0]` is the prefix before the first `@`, or the whole string when there is none |
| Strings.StrLeTotal | backend/routes/timetable.js:28 | string sort order compares any two strings |
| Strings.StrLeTransitive | backend/routes/timetable.js:28 | string sort order is transitive |
| Strings.StrLeAntisymmetric | backend/routes/timetable.js:28 | strings sorting both ways are equal |
| Users.FindById | backend/middleware/auth.js:17 | `findById` finds an account with that id exactly when one exists |
| Users.ResolveUser | backend/routes/timetable.js:50-60 | the account a public handler acts for is the one with the requested email (default email if falsy) when it exists, else one with the fallback role, else none (the 400 case) |
| Users.ResolveDefaultsToFallbackEmail | backend/routes/timetable.js:50 | with no `userEmail`, the account with the default email is picked whenever it exists |
| AuthGate.BearerToken | backend/middleware/auth.js:9 | there is a token exactly when there is a header, and it is never longer than the header (the removal of the first `"Bearer "` is `Strings.StripFirst`) |
| AuthGate.Hydrate | backend/middleware/auth.js:17 | `req.user` is the account with the token's `userId`, password removed, or null when it no longer exists |
| AuthGate.Auth | backend/middleware/auth.js:8-22 | 401 exactly when the header is missing or the stripped token is empty; 400 exactly when verification fails; otherwise the request proceeds with the hydrated (possibly null) user |
| AuthGate.AdminAuth | backend/middleware/auth.js:25-30 | passes exactly when the user is present and has role `admin`; otherwise 403, including when the user is null |
| AuthGate.AdminChain | backend/middleware/auth.js:8-30 | `auth` then `adminAuth`: admits only admins, passes `auth` refusals through unchanged and answers every other refusal with 403 |
| AuthGate.BearerHeaderYieldsToken | backend/middleware/auth.js:9 | a `Bearer <t>` header yields exactly `t` |
| AuthGate.HeaderWithoutBearerIsVerifiedWhole | backend/middleware/auth.js:9 | a header that never contains `"Bearer "` is verified whole |
| AuthGate.StudentTokenRefusedByAdminChain | backend/middleware/auth.js:25-30 | a valid token of a student account passes `auth` but the admin chain answers 403 |
| ClaimsGate.SplitToken | backend/middleware/authMiddleware.js:5 | the token is the second space-separated field of the header; none when the header is missing or has no space |
| ClaimsGate.AuthMiddleware | backend/middleware/authMiddleware.js:4-18 | 401 exactly when there is no token or it is empty; 403 exactly when verification fails; otherwise the decoded claims are attached with no account lookup |
| ClaimsGate.SchemeWordIgnored | backend/middleware/authMiddleware.js:5 | any scheme word, not only `Bearer`, followed by a space and a token yields that token |
| ClaimsGate.TokenIsSecondField | backend/middleware/authMiddleware.js:5-9 | `"Bearer a b"` yields `"a"`; `"Bearer  a"` yields the empty field and a 401 |
| ClaimsGate.GatesDisagreeOnInvalidToken | backend/middleware/authMiddleware.js:15-17 | on the same `Bearer` header a failing token is 400 under `auth` and 403 under `authMiddleware`; a passing one attaches the account and the claims respectively |
| ClaimsGate.BareSchemeIsNoToken | backend/middleware/authMiddleware.js:5-9 | the header `"Bearer "` yields an empty token and a 401 |
| AuthRoutes.DisplayName | backend/routes/authRoutes.js:37 | the returned name is the stored name if it is non-empty, otherwise the email's prefix before the first `@` |
| AuthRoutes.Register | backend/routes/authRoutes.js:10-43 | 400 exactly when any account has the email, whatever its role, with nothing stored; otherwise 201, exactly one account appended with role defaulting to `student`, the password stored hashed, and a one-hour token on `{userId, email, role}` |
| AuthRoutes.LoginAccount | backend/routes/authRoutes.js:51-57 | the login lookup finds an account with both the given email and the given role exactly when one exists |
| AuthRoutes.Login | backend/routes/authRoutes.js:46-86 | lookup by the (email, role) pair (`LoginAccount`); no match is a 401 with the role-specific message; a match with a failing password check is a 401 "Incorrect password. Please try again." with no session; 200 exactly when a pair matches and the password check passes, with a one-hour token on the account's claims and the name falling back to the email prefix |
| AuthRoutes.RegisterKeyIsEmailLoginKeyIsPair | backend/routes/authRoutes.js:15-18 | a taken email blocks registration under any role, while login as a role that no holder of that email has finds no account |
| AuthRoutes.RegisterThenLogin | backend/routes/authRoutes.js:21-29 | with well-behaved oracles, a newly registered account logs in with the same email, role and password and receives the token for its claims |
| AuthRoutes.RegisteredTokenPassesAuth | backend/routes/authRoutes.js:25-29 | the token returned by registration passes `auth` and hydrates the new account |
| TimetableSchema.ParseDay | backend/models/Timetable.js:9-13 | `day` validates exactly on Monday through Saturday; there is no Sunday |
| TimetableSchema.ParseDayName | backend/models/Timetable.js:9-13 | every enum day's name validates back to that day |
| TimetableSchema.TrimOpt | backend/models/Timetable.js:23-30 | an optional `room` or `teacher` stays absent, or is stored as the trim of the given value |
| TimetableSchema.Build | backend/models/Timetable.js:3-33 | a new entry saves exactly when the day is valid, `time` is non-empty and `subject` trims to non-empty; the saved entry carries the given fields, trimmed |
| TimetableSchema.InsertIndexed | backend/models/Timetable.js:35-36 | the unique index refuses an insert exactly when the (user, day, time) slot is taken |
| TimetableSchema.ValidRemove | backend/models/Timetable.js:35-36 | removing an entry keeps the invariant and frees its slot |
| TimetableSchema.ValidReplace | backend/models/Timetable.js:35-36 | replacing an entry by a conforming one with the same id and slot keeps the invariant |
| TimetableSchema.SlotOrderIsTotalPreorder | backend/routes/timetable.js:28 | sorting by day then time is a total preorder |
| TimetableSchema.DaysSortAsWords | backend/routes/timetable.js:28 | days sort by their names as strings, so Friday precedes Monday and Saturday precedes Thursday |
| TimetableRoutes.ListClasses | backend/routes/timetable.js:9-42 | 400 when no account resolves; otherwise exactly the resolved account's entries, each as often as stored, sorted by day name then time |
| TimetableRoutes.AddClass | backend/routes/timetable.js:45-107 | 400 with nothing stored when no account resolves or the slot is occupied; 201 exactly when the account resolves, the slot is free and validation passes, appending one entry with the given (trimmed) fields; any other failure stores nothing |
| TimetableRoutes.PrecheckImpliesIndexAccepts | backend/routes/timetable.js:94-99 | in a sequential run the occupied-slot check leaves the duplicate-key branch unreachable |
| TimetableRoutes.AddClassPreservesValid | backend/routes/timetable.js:76-91 | a successful add keeps at most one entry per slot, unique ids and conforming entries |
| TimetableRoutes.AddTwiceSecondRefused | backend/routes/timetable.js:62-74 | repeating a successful add is refused with 400 "Time slot already occupied" and changes nothing |
| TimetableRoutes.DeleteClassById | backend/routes/timetable.js:110-133 | 404 exactly when no entry has the id, with nothing changed; otherwise exactly that entry is removed |
| TimetableRoutes.DeleteClassByIdPreservesValid | backend/routes/timetable.js:112-119 | after a delete by id no entry has that id and the invariant holds |
| TimetableRoutes.UpdateClass | backend/routes/timetable.js:136-162 | 500 for a null user; 404 exactly when the caller owns no entry with the id; 200 exactly when the first such entry, edited, keeps a non-empty subject, and then only that entry changes, by the edit rule; otherwise 500 |
| TimetableRoutes.OwnerUpdateTakesEffect | backend/routes/timetable.js:140-158 | with unique ids, the owner's update of an entry is answered "Class updated successfully" whenever the edited subject is non-empty |
| TimetableRoutes.EditKeepsSlotAndOmittedFields | backend/routes/timetable.js:149-151 | an edit never changes user, day, time, id or creation stamp; an empty or missing subject, room or teacher keeps the old value, and a given one is stored trimmed |
| TimetableRoutes.UpdateClassPreservesValid | backend/routes/timetable.js:149-153 | an update keeps the invariant |
| TimetableRoutes.DeleteOwnedClass | backend/routes/timetable.js:165-180 | the shadowed delete: 500 for a null user; 404 exactly when the caller owns no entry with the id; otherwise 200 and that entry is removed |
| TimetableRoutes.DeleteOwnedClassPreservesValid | backend/routes/timetable.js:167-170 | the shadowed delete keeps the invariant |
| TimetableRoutes.DeleteClassBySlot | backend/routes/timetable.js:183-201 | 500 for a null user; 404 exactly when the caller has no class at (day, time); when the caller has one the reply is 200 and one of the caller's classes there is removed; no other reply |
| TimetableRoutes.DeleteClassBySlotFreesSlot | backend/routes/timetable.js:187-195 | after a delete by slot the caller's slot is free and the invariant holds |
| TimetableRoutes.UpdateRoute | backend/routes/timetable.js:136 | a request `auth` refuses gets `auth`'s reply and changes nothing |
| TimetableRoutes.DeleteSlotRoute | backend/routes/timetable.js:183 | a request `auth` refuses gets `auth`'s reply and changes nothing |
| TimetableRoutes.DeleteOwnedRoute | backend/routes/timetable.js:165 | a request `auth` refuses gets `auth`'s reply and changes nothing |
| TimetableRoutes.HandlePreservesValid | backend/models/Timetable.js:35-36 | every reachable timetable route keeps at most one entry per (user, day, time) |
| TimetableRoutes.Handle | backend/routes/timetable.js:45-201 | the four reachable writing routes: the update and delete-by-slot routes give `auth`'s refusal unchanged and write nothing; no route moves the id clock back |
| TimetableRoutes.Run | backend/routes/timetable.js:45-201 | over any sequence of requests the id clock never goes back, so an id once issued is never issued again |
| TimetableRoutes.RunPreservesValid | backend/models/Timetable.js:35-36 | any sequence of requests from a valid timetable keeps at most one entry per (user, day, time), unique ids and conforming entries |
| ComplaintSchema.ParseCategory | backend/models/Complaint.js:13-17 | `category` validates exactly on water, electricity, cleaning, maintenance and other |
| ComplaintSchema.ParseCategoryName | backend/models/Complaint.js:13-17 | every category's name validates back to it |
| ComplaintSchema.ParseStatus | backend/models/Complaint.js:18-22 | `status` validates exactly on pending, in-progress and resolved |
| ComplaintSchema.ParseStatusName | backend/models/Complaint.js:18-22 | every status's name validates back to it |
| ComplaintSchema.Build | backend/models/Complaint.js:3-42 | a new complaint saves exactly when the title trims to non-empty, the description is non-empty, the category and priority are enum values; it is pending, unassigned, unresolved, with the trimmed title |
| ComplaintSchema.NewestFirstIsTotalPreorder | backend/routes/complaints.js:24 | newest-first by `createdAt` is a total preorder |
| ComplaintRoutes.ListComplaints | backend/routes/complaints.js:9-38 | exactly the complaints matching `status` and `category`, each filter applying only when present and not `'all'`, sorted newest first |
| ComplaintRoutes.UnfilteredListingIsEverything | backend/routes/complaints.js:14-19 | absent or `'all'` filters list every complaint |
| ComplaintRoutes.UnknownStatusListsNothing | backend/routes/complaints.js:14-16 | a status filter naming no enum value lists nothing |
| ComplaintRoutes.CreateComplaint | backend/routes/complaints.js:41-82 | 400 when no student resolves; 201 exactly when one resolves and validation passes with the priority defaulting to `medium`, appending one pending complaint for that student; any other failure stores nothing |
| ComplaintRoutes.CreateComplaintPreservesValid | backend/routes/complaints.js:58-66 | creating keeps the complaint invariant |
| ComplaintRoutes.SetStatus | backend/routes/complaints.js:85-118 | the live status update: 404 exactly for an unknown id; 200 exactly when the status is an enum value and the first complaint with the id passes the schema validators (title and description present, priority in its enum), since `save()` re-validates the loaded document; trimming is a setter, so an untrimmed stored title is no obstacle; any other outcome is a 500 that changes nothing; only `status` changes, and `resolvedAt` is set exactly when the new status is `resolved`, otherwise left untouched |
| ComplaintRoutes.UntrimmedTitleDoesNotBlockStatus | backend/models/Complaint.js:4-8 | a stored title `" Leak"` does not stop a status update: `trim` is applied on assignment, not checked by `save()` |
| ComplaintRoutes.ResolvingAgainRestamps | backend/routes/complaints.js:97-100 | resolving an already resolved complaint stamps `resolvedAt` anew |
| ComplaintRoutes.SetStatusAdmin | backend/routes/complaints.js:121-149 | the shadowed status update: as the live one, including the 500 when the complaint found fails the schema validators, and `assignedTo` changes only when one is given |
| ComplaintRoutes.SetStatusPreservesValid | backend/routes/complaints.js:97-102 | a status update keeps the complaint invariant |
| ComplaintRoutes.SetStatusAdminPreservesValid | backend/routes/complaints.js:130-138 | the shadowed status update keeps the complaint invariant |
| ComplaintRoutes.SetPriority | backend/routes/complaints.js:152-175 | as written: 404 exactly for an unknown id; otherwise 200 and only `priority` changes, to any string |
| ComplaintRoutes.SetPriorityStoresNonEnumValue | backend/routes/complaints.js:156-160 | on a valid collection a non-enum priority is accepted and stored, breaking the schema's enum |
| ComplaintRoutes.UrgentPriorityIsStored | backend/routes/complaints.js:156-160 | concretely, `"urgent"` is stored with a 200 |
| ComplaintRoutes.SetPriorityValidated | backend/routes/complaints.js:152-175 | corrected: a non-enum priority is a 500 with nothing changed; otherwise 404 exactly for an unknown id, and on success only `priority` changes |
| ComplaintRoutes.SetPriorityValidatedPreservesValid | backend/models/Complaint.js:32-36 | the corrected priority update keeps every stored priority in the enum |
| ComplaintRoutes.DeleteComplaint | backend/routes/complaints.js:178-195 | 404 exactly for an unknown id; then 500 for a null user; 403 exactly when the caller is a student who does not own the complaint; 200 exactly when the caller is the owner or not a student, removing that complaint |
| ComplaintRoutes.DeleteComplaintPreservesValid | backend/routes/complaints.js:190 | a delete keeps the complaint invariant |
| ComplaintRoutes.ComplaintStats | backend/routes/complaints.js:198-225 | one group per status and per category that occurs, holding the number of complaints with that value |
| ComplaintRoutes.StatusCountsPartition | backend/routes/complaints.js:200-207 | the per-status counts add up to the number of complaints |
| ComplaintRoutes.CategoryCountsPartition | backend/routes/complaints.js:209-216 | the per-category counts add up to the number of complaints |
| ComplaintRoutes.StatusGroupIsCount | backend/routes/complaints.js:200-207 | the `$group` by status with `$sum: 1` gives each status the number of complaints holding it, 0 for a status with no group |
| ComplaintRoutes.CategoryGroupIsCount | backend/routes/complaints.js:209-216 | the `$group` by category with `$sum: 1` gives each category the number of complaints holding it, 0 for a category with no group |
| ComplaintRoutes.StatsCoverEveryComplaint | backend/routes/complaints.js:200-216 | both groupings account for every complaint exactly once |
| ComplaintRoutes.StatsRoute | backend/routes/complaints.js:198 | statistics only for admins; any other caller gets the gate's refusal and no data |
| ComplaintRoutes.PriorityRoute | backend/routes/complaints.js:152-175 | corrected route: the store changes only for an admin and an enum priority (the route as registered is `PriorityRouteAsWritten`) |
| ComplaintRoutes.PriorityRouteAsWritten | backend/routes/complaints.js:152-175 | the route as registered: a refused request gets the gate's reply and changes nothing; for an admin, 404 exactly for an unknown id; any change needs an admin |
| ComplaintRoutes.AdminBreaksPriorityEnum | backend/routes/complaints.js:156-160 | through the route as registered an admin's non-enum priority on an existing complaint is a 200 that leaves the collection invalid; the corrected route answers 500 and changes nothing |
| ComplaintRoutes.NonEnumPriorityBlocksStatus | backend/routes/complaints.js:97-102 | once the priority route as registered has stored a non-enum priority, every later status update of that complaint is a 500 that changes nothing |
| ComplaintRoutes.StatusAdminRoute | backend/routes/complaints.js:121 | the shadowed admin route changes the store only for an admin |
| ComplaintRoutes.DeleteRoute | backend/routes/complaints.js:178 | a request `auth` refuses changes nothing; a change needs a live user |
| ComplaintRoutes.DeleteRouteRoleRule | backend/routes/complaints.js:185-190 | an admin deletes any complaint; a student deletes exactly the complaints filed for them |
| ComplaintRoutes.HandlePreservesValid | backend/models/Complaint.js:3-42 | corrected program: every reachable complaint route that writes keeps the invariant, with the corrected priority route in place of the one as registered |
| ComplaintRoutes.Handle | backend/routes/complaints.js:41-195 | corrected program, with the corrected priority route: the priority route gives the admin gate's refusal unchanged, the delete route gives `auth`'s refusal unchanged, and neither writes then; no route moves the id clock back |
| ComplaintRoutes.Run | backend/routes/complaints.js:41-195 | corrected program: over any sequence of requests the id clock never goes back, so an id once issued is never issued again |
| ComplaintRoutes.RunPreservesValid | backend/models/Complaint.js:3-42 | corrected program: any sequence of requests keeps unique ids, trimmed titles, descriptions and enum priorities; as registered, `AdminBreaksPriorityEnum` shows the priority enum is not kept |
| LostFoundSchema.ParseKind | backend/models/LostFound.js:13-17 | `category` validates exactly on lost and found |
| LostFoundSchema.ParseKindName | backend/models/LostFound.js:13-17 | each kind's name validates back to it |
| LostFoundSchema.ParseItemType | backend/models/LostFound.js:18-22 | `itemType` validates exactly on the six values |
| LostFoundSchema.ParseItemTypeName | backend/models/LostFound.js:18-22 | each item type's name validates back to it |
| LostFoundSchema.ItemTypeOrDefault | backend/models/LostFound.js:18-22 | an absent `itemType` defaults to `other`; a given one must validate |
| LostFoundSchema.ParseItemStatus | backend/models/LostFound.js:36-40 | `status` validates exactly on active and resolved |
| LostFoundSchema.ParseItemStatusName | backend/models/LostFound.js:36-40 | each status's name validates back to it |
| LostFoundSchema.Build | backend/models/LostFound.js:3-43 | a new item saves exactly when the title trims to non-empty, description, location and contact are non-empty and the enums validate; it is active, with the trimmed title |
| LostFoundSchema.NewestFirstIsTotalPreorder | backend/routes/lostfound.js:22 | newest-first by `createdAt` is a total preorder |
| LostFoundRoutes.ListItems | backend/routes/lostfound.js:8-28 | exactly the active items matching `category` and `itemType`, each filter applying only when present and not `'all'`, sorted newest first |
| LostFoundRoutes.ResolvedItemsNeverListed | backend/routes/lostfound.js:11 | every listed item is active and stored |
| LostFoundRoutes.UnfilteredListingIsActiveItems | backend/routes/lostfound.js:11-19 | without filters the listing holds exactly the active items |
| LostFoundRoutes.ListRoute | backend/routes/lostfound.js:8 | listing requires `auth`; a refused request gets no items |
| LostFoundRoutes.ReportItem | backend/routes/lostfound.js:31-55 | 500 for a null user; 201 exactly when validation passes, appending one active item owned by the caller with the trimmed title and the given description, category, item type, location and contact; otherwise nothing stored |
| LostFoundRoutes.ReportItemPreservesValid | backend/routes/lostfound.js:35-45 | reporting keeps the lost-and-found invariant |
| LostFoundRoutes.SetItemStatus | backend/routes/lostfound.js:58-83 | 404 exactly for an unknown id; 403 exactly for a live non-owner; 200 exactly for the owner with an enum status, changing only `status` |
| LostFoundRoutes.SetItemStatusPreservesValid | backend/routes/lostfound.js:72-73 | a status update keeps the invariant |
| LostFoundRoutes.DeleteItem | backend/routes/lostfound.js:86-103 | 404 exactly for an unknown id; 403 exactly for a live non-owner; 200 exactly for the owner, removing the item |
| LostFoundRoutes.DeleteItemPreservesValid | backend/routes/lostfound.js:98 | a delete keeps the invariant |
| LostFoundRoutes.OnlyOwnerWrites | backend/routes/lostfound.js:67-96 | any non-owner, admins included, gets 403 for both status update and delete, with nothing changed |
| LostFoundRoutes.Handle | backend/routes/lostfound.js:31-103 | every writing route is behind `auth`: a refused request changes nothing and a change needs a live user; no route moves the id clock back |
| LostFoundRoutes.Run | backend/routes/lostfound.js:31-103 | over any sequence of requests the id clock never goes back, so an id once issued is never issued again |
| LostFoundRoutes.HandlePreservesValid | backend/models/LostFound.js:3-43 | every writing route keeps the invariant |
| LostFoundRoutes.RunPreservesValid | backend/models/LostFound.js:3-43 | any sequence of requests keeps unique ids, trimmed titles and the required fields |
| Announcements.ListAnnouncements | backend/routes/announcements.js:9-30 | exactly the announcements matching `category` when it is present and not `'all'`, sorted newest first |
| Announcements.AllIsNoFilter | backend/routes/announcements.js:12 | `'all'` and no filter both list every announcement |
| Announcements.CreateAnnouncement | backend/routes/announcements.js:33-73 | 400 when no admin author resolves; 201 exactly when one resolves and the save accepts the new announcement, which is appended with the resolved author, the given title and content, and the category defaulting to `general`; a refused save is a 500 with nothing stored |
| Announcements.UpdateAnnouncement | backend/routes/announcements.js:76-97 | 404 exactly for an unknown id; otherwise only the given title, content and category change |
| Announcements.DeleteAnnouncement | backend/routes/announcements.js:100-112 | 404 exactly for an unknown id; otherwise that announcement is removed |
| Announcements.DeleteRemovesId | backend/routes/announcements.js:102 | after a delete no announcement has that id |
| Announcements.Handle | backend/routes/announcements.js:76-100 | update and delete first pass `auth` and `adminAuth`; a refused request gets the gate's reply and changes nothing |
| Announcements.OnlyAdminsChangeAnnouncements | backend/routes/announcements.js:76-100 | anyone but an admin gets 401, 400 or 403 on update and delete, with nothing changed |
| Announcements.HandlePreservesValid | backend/routes/announcements.js:33-112 | every writing route keeps ids unique and issued by the clock |
| Routing.Dispatch | backend/routes/complaints.js:85-121 | the handler run is the first registered route whose verb and path pattern match |
| Routing.ShadowedNeverDispatched | backend/routes/complaints.js:85-121 | a route registered after one with the same verb and pattern is never run |
| Routing.ComplaintRoute | backend/routes/complaints.js:9-198 | for each handler, exactly which requests reach it: `GET /` the listing, `POST /` the creation, `PUT /:id/status` the public status update, `PUT /:id/priority` the priority update, `DELETE /:id` the delete, `GET /stats` the statistics; the admin status update is never reached, and any other request reaches nothing |
| Routing.ComplaintDispatchIsIndex | backend/routes/complaints.js:9-198 | first-match dispatch over the routes in registration order picks the route the request's verb and shape select |
| Routing.ComplaintStatusIsPublic | backend/routes/complaints.js:85 | `PUT /:id/status` runs the public status update |
| Routing.ComplaintStatusAdminIsDead | backend/routes/complaints.js:121 | the admin status update never runs |
| Routing.ComplaintStatsReachable | backend/routes/complaints.js:198 | `GET /stats` runs the statistics handler |
| Routing.TimetableRoute | backend/routes/timetable.js:9-183 | for each handler, exactly which requests reach it: `GET /` the listing, `POST /` the add, `DELETE /:id` the public delete by id, `PUT /:id` the update, `DELETE /slot/:day/:time` the delete by slot; the owner-scoped delete is never reached, and any other request reaches nothing |
| Routing.TimetableDispatchIsIndex | backend/routes/timetable.js:9-183 | first-match dispatch over the routes in registration order picks the route the request's verb and shape select |
| Routing.TimetableDeleteIsPublic | backend/routes/timetable.js:110 | `DELETE /:id` runs the public delete by id |
| Routing.TimetableOwnedDeleteIsDead | backend/routes/timetable.js:165 | the owner-scoped delete, registered on the same path after it, never runs |
| Routing.TimetableSlotDeleteReachable | backend/routes/timetable.js:183 | `DELETE /slot/:day/:time` runs the delete by slot, not a delete by id |

## Left out

- Database faults and the 500s they cause are left out. A 500 is modelled only where the handler's own logic throws: a validation failure, or a null `req.user`.
- ObjectId casting is left out. Ids are natural numbers, so a malformed id, which the source answers with a CastError and a 500, has no counterpart.
- `populate` and the JSON bodies are left out. Replies carry the status code and the `message`, and listings carry the documents.
- Token cryptography is left out: signing, verification, expiry and the `'yourSecretKey'` fallback secret. Verification is the oracle `Crypto.verify`.
- Password hashing and `comparePassword` are the oracles `Crypto.hash` and `Crypto.passwordMatches`, because the User model is not part of this model.
- AuthRoutes.Register: does not model a failing `user.save()` (a 500), because the User schema, with whatever it requires, is not part of this model.
- Announcements.CreateAnnouncement: the Announcement schema is not part of this model, so its validation is the parameter `accepts`. A field is defaulted only where the handler defaults it.
- Announcements.UpdateAnnouncement: assumes Mongoose drops `undefined` fields from an update, so an absent field keeps its value.
- `Date` values and the `timestamps` option are replaced by the logical clock. `updatedAt` is not modelled.
- The check-then-insert race on timetable slots is left out, because it is concurrency. `InsertIndexed` still models the unique index's refusal.
- ComplaintRoutes.SetStatus: the request's `status` is a present string. A body without `status` assigns `undefined`, which the enum validator skips, so the source answers 200 and leaves the complaint with no status. That case is not modelled.
- ComplaintRoutes.SetStatusAdmin: the request's `status` is a present string, so the missing-`status` case (200 with the status unset) is not modelled.
- ComplaintRoutes.SetPriority: the request's `priority` is a present string. A body without `priority` makes `findByIdAndUpdate` a no-op answered 200, and that case is not modelled.
- LostFoundRoutes.SetItemStatus: the request's `status` is a present string. A body without `status` answers 200 to the owner and leaves the item with no status, and that case is not modelled.
- Request fields are modelled as present strings where the handler uses them in a filter or a required path. A field that is `undefined` in a query filter, and query values that are arrays or objects, are not modelled.
- Routing: literal path segments match exactly. Express's default case-insensitive matching and its trailing-slash tolerance are not modelled.
- `backend/routes/auth.js` is left out: it has no export and is never mounted.
- `backend/server.js`, `backend/routes/secure.js`, `backend/addSampleData.js` and `backend/createTestUsers.js` are bootstrap, echo and seeding code.
- String sorts use code-point order. MongoDB collations are not modelled.

## Findings

| source | as written | input that shows it | evidently intended | confidence | as-written member | corrected member |
|---|---|---|---|---|---|---|
| backend/routes/complaints.js:156-160 | `findByIdAndUpdate(id, { priority }, { new: true })` without `runValidators`, so the schema's priority enum (backend/models/Complaint.js:32-36) is not checked | `PUT /api/complaints/<existing id>/priority` by an admin with `{"priority": "urgent"}`: 200, and `"urgent"` is stored | a value outside low, medium and high is refused, as every other write path does through `save()` | not executed; high that Mongoose skips update validators unless asked | ComplaintRoutes.SetPriority | ComplaintRoutes.SetPriorityValidated |

`ComplaintRoutes.SetPriorityStoresNonEnumValue` proves the discrepancy for every valid collection, and `ComplaintRoutes.UrgentPriorityIsStored` shows a concrete instance. `ComplaintRoutes.PriorityRouteAsWritten` is the route as registered, and `ComplaintRoutes.AdminBreaksPriorityEnum` shows an admin breaking the enum through it. `ComplaintRoutes.NonEnumPriorityBlocksStatus` shows the downstream effect: `save()` validates the whole document, so every later status update of such a complaint is a 500. The corrected route, `ComplaintRoutes.PriorityRoute`, uses the corrected update. The complaint `Handle`, `Run` and their invariant lemmas describe this corrected program. `ComplaintRoutes.SetPriorityValidatedPreservesValid` and `ComplaintRoutes.RunPreservesValid` prove that every stored priority then stays in the enum.

=== FILE: announcements.dfy ===
/** The announcement handlers (backend/routes/announcements.js, mounted at
    /api/announcements). Listing and creating are public; update and delete
    run behind `auth` and `adminAuth`. The Announcement schema is not part of
    this model: the validation `save()` applies is a parameter, `accepts`. */
module Announcements {
  import opened Base
  import opened Collection
  import opened Users
  import opened Tokens
  import opened AuthGate

  /** A stored announcement; `category` is kept as the string the request gave. */
  datatype Announcement = Announcement(
    id: nat, title: string, content: string, category: string, author: UserId, createdAt: nat)

  function Id(a: Announcement): nat
  {
    a.id
  }

  /** The announcements collection invariant: ids unique and issued by the clock. */
  predicate Valid(st: Store<Announcement>)
  {
    IdsFresh(st, Id)
  }

  const NoAdminReply := Reply(BadRequest, "No admin user found. Please create an admin user first.")
  const CreatedReply := Reply(Created, "Announcement created successfully")
  const NotFoundReply := Reply(NotFound, "Announcement not found")
  const UpdatedReply := Reply(OK, "Announcement updated successfully")
  const DeletedReply := Reply(OK, "Announcement deleted successfully")
  const ListedReply := Reply(OK, "")

  /** `GET /` filter: `category` constrains only when present and not `'all'`. */
  predicate Matches(a: Announcement, category: Option<string>)
  {
    Constrains(category) ==> a.category == category.value
  }

  /** `.sort({ createdAt: -1 })`. */
  predicate NewestFirst(a: Announcement, b: Announcement)
  {
    a.createdAt >= b.createdAt
  }

  /** `GET /`: the matching announcements, newest first. */
  function ListAnnouncements(st: Store<Announcement>, category: Option<string>): (r: Listing<Announcement>)
    ensures r.reply == ListedReply
    ensures forall a :: multiset(r.items)[a] == if Matches(a, category) then multiset(st.items)[a] else 0
    ensures Sorted(r.items, NewestFirst)
  {
    assert TotalPreorder(NewestFirst);
    Listing(ListedReply, SortBy(Filter(st.items, (a: Announcement) => Matches(a, category)), NewestFirst))
  }

  /** `'all'` lists the same announcements as no filter at all. */
  lemma AllIsNoFilter(st: Store<Announcement>)
    ensures multiset(ListAnnouncements(st, Some("all")).items) == multiset(st.items)
    ensures multiset(ListAnnouncements(st, None).items) == multiset(st.items)
  {
    var r1 := ListAnnouncements(st, Some("all"));
    var r2 := ListAnnouncements(st, None);
    assert forall a :: multiset(r1.items)[a] == multiset(st.items)[a];
    assert forall a :: multiset(r2.items)[a] == multiset(st.items)[a];
  }

  datatype CreateRequest = CreateRequest(
    title: string, content: string, category: Option<string>, authorEmail: Option<string>)

  /** The author of a new announcement: by `authorEmail` (default
      `admin@test.com`), else any admin. */
  function Author(users: seq<User>, authorEmail: Option<string>): Option<User>
  {
    ResolveUser(users, authorEmail, "admin@test.com", "admin")
  }

  /** `POST /`: resolve the author, default the category to `'general'`,
      save. A document `accepts` refuses is a 500. */
  function CreateAnnouncement(users: seq<User>, st: Store<Announcement>, req: CreateRequest,
                              accepts: Announcement -> bool): (r: Step<Announcement>)
    ensures Author(users, req.authorEmail).None? ==> r == Step(NoAdminReply, st)
    ensures (var u := Author(users, req.authorEmail);
             u.Some? && accepts(Announcement(st.clock, req.title, req.content,
                                             OrElse(req.category, "general"), u.value.id, st.clock))) ==>
              r.reply == CreatedReply
    ensures r.reply in {NoAdminReply, CreatedReply, ServerErrorReply}
    ensures r.reply.status != Created ==> r.store == st
    ensures Author(users, req.authorEmail).Some? && r.reply.status != Created ==> r.reply == ServerErrorReply
    ensures r.reply.status == Created ==>
              (&& r.reply == CreatedReply
               && |r.store.items| == |st.items| + 1 && r.store.clock == st.clock + 1
               && r.store.items[..|st.items|] == st.items
               && var a := r.store.items[|st.items|];
                  && accepts(a)
                  && a.id == st.clock && a.createdAt == st.clock
                  && a.author == Author(users, req.authorEmail).value.id
                  && a.title == req.title && a.content == req.content
                  && a.category == (if Truthy(req.category) then req.category.value else "general"))
  {
    match Author(users, req.authorEmail)
    case None => Step(NoAdminReply, st)
    case Some(u) =>
      var a := Announcement(st.clock, req.title, req.content, OrElse(req.category, "general"), u.id, st.clock);
      if !accepts(a) then Step(ServerErrorReply, st)
      else
        var items := st.items + [a];
        assert items[..|st.items|] == st.items;
        Step(CreatedReply, Store(items, st.clock + 1))
  }

  /** The fields of `PUT /:id`; an absent field is dropped from the update. */
  datatype UpdateRequest = UpdateRequest(title: Option<string>, content: Option<string>, category: Option<string>)

  /** `findByIdAndUpdate(id, { title, content, category })`: validators do not
      run; an unknown id is a 404; only the given fields change. */
  function UpdateAnnouncement(st: Store<Announcement>, id: nat, req: UpdateRequest): (r: Step<Announcement>)
    ensures r.reply == NotFoundReply <==> forall j :: 0 <= j < |st.items| ==> st.items[j].id != id
    ensures r.reply != NotFoundReply ==> r.reply == UpdatedReply
    ensures r.reply == NotFoundReply ==> r.store == st
    ensures r.reply == UpdatedReply ==>
              (&& r.store.clock == st.clock && |r.store.items| == |st.items|
               && exists k :: 0 <= k < |st.items| && st.items[k].id == id
                    && var a := r.store.items[k];
                       && r.store.items == st.items[k := a]
                       && a.title == (if req.title.Some? then req.title.value else st.items[k].title)
                       && a.content == (if req.content.Some? then req.content.value else st.items[k].content)
                       && a.category == (if req.category.Some? then req.category.value else st.items[k].category)
                       && a.id == id && a.author == st.items[k].author && a.createdAt == st.items[k].createdAt)
  {
    match FirstIndex(st.items, (a: Announcement) => a.id == id)
    case None => Step(NotFoundReply, st)
    case Some(k) =>
      var prev := st.items[k];
      var a := prev.(title := if req.title.Some? then req.title.value else prev.title,
                     content := if req.content.Some? then req.content.value else prev.content,
                     category := if req.category.Some? then req.category.value else prev.category);
      Step(UpdatedReply, Store(st.items[k := a], st.clock))
  }

  /** `findByIdAndDelete(id)`: an unknown id is a 404. */
  function DeleteAnnouncement(st: Store<Announcement>, id: nat): (r: Step<Announcement>)
    ensures r.reply == NotFoundReply <==> forall j :: 0 <= j < |st.items| ==> st.items[j].id != id
    ensures r.reply != NotFoundReply ==> r.reply == DeletedReply
    ensures r.reply == NotFoundReply ==> r.store == st
    ensures r.reply == DeletedReply ==>
              (&& r.store.clock == st.clock
               && exists k :: 0 <= k < |st.items| && st.items[k].id == id && r.store.items == RemoveAt(st.items, k))
  {
    match FirstIndex(st.items, (a: Announcement) => a.id == id)
    case None => Step(NotFoundReply, st)
    case Some(k) => Step(DeletedReply, Store(RemoveAt(st.items, k), st.clock))
  }

  /** In a valid collection a delete leaves no announcement with that id. */
  lemma DeleteRemovesId(st: Store<Announcement>, id: nat)
    requires Valid(st)
    ensures Valid(DeleteAnnouncement(st, id).store)
    ensures forall j :: 0 <= j < |DeleteAnnouncement(st, id).store.items| ==>
              DeleteAnnouncement(st, id).store.items[j].id != id
  {
    match FirstIndex(st.items, (a: Announcement) => a.id == id)
    case None =>
    case Some(k) => IdsFreshRemove(st, k, Id);
  }

  /** One request to a route that writes. */
  datatype Request =
    | Create(create: CreateRequest)
    | Update(updateHeader: Option<string>, updateId: nat, update: UpdateRequest)
    | Delete(deleteHeader: Option<string>, deleteId: nat)

  /** Update and delete go through `auth` and `adminAuth` first. */
  function Handle(st: Store<Announcement>, users: seq<User>, crypto: Crypto, accepts: Announcement -> bool,
                  req: Request): (r: Step<Announcement>)
    ensures req.Update? && AdminChain(req.updateHeader, crypto, users).Denied? ==>
              r == Step(AdminChain(req.updateHeader, crypto, users).reply, st)
    ensures req.Delete? && AdminChain(req.deleteHeader, crypto, users).Denied? ==>
              r == Step(AdminChain(req.deleteHeader, crypto, users).reply, st)
  {
    match req
    case Create(c) => CreateAnnouncement(users, st, c, accepts)
    case Update(h, id, u) =>
      (match AdminChain(h, crypto, users)
       case Denied(reply) => Step(reply, st)
       case Admitted(_) => UpdateAnnouncement(st, id, u))
    case Delete(h, id) =>
      (match AdminChain(h, crypto, users)
       case Denied(reply) => Step(reply, st)
       case Admitted(_) => DeleteAnnouncement(st, id))
  }

  /** Only an admin changes existing announcements: a request by anyone else
      that is not a create leaves the collection as it was and is answered
      with 401, 400 or 403. */
  lemma OnlyAdminsChangeAnnouncements(st: Store<Announcement>, users: seq<User>, crypto: Crypto,
                                      accepts: Announcement -> bool, req: Request)
    requires !req.Create?
    requires var h := if req.Update? then req.updateHeader else req.deleteHeader;
             !AdminChain(h, crypto, users).Admitted?
    ensures Handle(st, users, crypto, accepts, req).store == st
    ensures Handle(st, users, crypto, accepts, req).reply.status in {Unauthorized, BadRequest, Forbidden}
  {
  }

  lemma HandlePreservesValid(st: Store<Announcement>, users: seq<User>, crypto: Crypto,
                             accepts: Announcement -> bool, req: Request)
    requires Valid(st)
    ensures Valid(Handle(st, users, crypto, accepts, req).store)
  {
    match req
    case Create(c) =>
      var r := CreateAnnouncement(users, st, c, accepts);
      if r.reply.status == Created {
        var a := r.store.items[|st.items|];
        assert r.store.items == st.items + [a];
        IdsFreshAppend(st, a, Id);
      }
    case Update(h, id, u) =>
      match FirstIndex(st.items, (a: Announcement) => a.id == id) {
        case None =>
        case Some(k) =>
          var r := UpdateAnnouncement(st, id, u);
          IdsFreshReplace(st, k, r.store.items[k], Id, st.clock);
      }
    case Delete(h, id) => DeleteRemovesId(st, id);
  }
}

=== FILE: auth_gate.dfy ===
/** The identity-hydrating gate `auth` and the role gate `adminAuth`
    (backend/middleware/auth.js). */
module AuthGate {
  import opened Base
  import opened Strings
  import opened Users
  import opened Tokens

  /** What the gate decides: stop with a reply, or call `next()` with
      `req.user` set. `user` is `None` when the token's account no longer
      exists: `findById` then yields `null` and the request still proceeds. */
  datatype GateResult = Denied(reply: Reply) | Admitted(user: Option<Principal>)

  const BearerPrefix := "Bearer "
  const NoTokenReply := Reply(Unauthorized, "Access Denied. No token provided.")
  const InvalidTokenReply := Reply(BadRequest, "Invalid Token")
  const AdminsOnlyReply := Reply(Forbidden, "Access Denied. Admins only.")

  /** `req.header('Authorization')?.replace('Bearer ', '')`: the header with
      the FIRST occurrence of `"Bearer "` removed, wherever it is. */
  function BearerToken(header: Option<string>): (r: Option<string>)
    ensures header.None? <==> r.None?
    ensures r.Some? ==> |r.value| <= |header.value|
  {
    match header
    case None => None
    case Some(h) => Some(StripFirst(h, BearerPrefix))
  }

  /** The account `req.user` is hydrated from, password removed. */
  function Hydrate(users: seq<User>, id: UserId): (r: Option<Principal>)
    ensures r.Some? ==> r.value.id == id && exists j :: 0 <= j < |users| && View(users[j]) == r.value
    ensures r.None? <==> forall j :: 0 <= j < |users| ==> users[j].id != id
  {
    match FindById(users, id)
    case None => None
    case Some(u) => Some(View(u))
  }

  /** The `auth` middleware. */
  function Auth(header: Option<string>, crypto: Crypto, users: seq<User>): (r: GateResult)
    ensures r == Denied(NoTokenReply) <==> header.None? || BearerToken(header).value == ""
    ensures r == Denied(InvalidTokenReply) <==>
              header.Some? && BearerToken(header).value != "" && crypto.verify(BearerToken(header).value).None?
    ensures r.Denied? ==> r.reply == NoTokenReply || r.reply == InvalidTokenReply
    ensures r.Admitted? ==>
              (&& header.Some? && BearerToken(header).value != ""
               && crypto.verify(BearerToken(header).value).Some?
               && r.user == Hydrate(users, crypto.verify(BearerToken(header).value).value.userId))
  {
    match BearerToken(header)
    case None => Denied(NoTokenReply)
    case Some(token) =>
      if token == "" then Denied(NoTokenReply)
      else
        match crypto.verify(token)
        case None => Denied(InvalidTokenReply)
        case Some(claims) => Admitted(Hydrate(users, claims.userId))
  }

  /** The `adminAuth` middleware: `None` means `next()`. It passes exactly when
      `req.user?.role === 'admin'`; a missing user is refused like a non-admin. */
  function AdminAuth(user: Option<Principal>): (r: Option<Reply>)
    ensures r.None? <==> user.Some? && user.value.role == "admin"
    ensures r.Some? ==> r.value == AdminsOnlyReply
  {
    if user.Some? && user.value.role == "admin" then None else Some(AdminsOnlyReply)
  }

  /** `auth` followed by `adminAuth`, the chain in front of every admin-only route. */
  function AdminChain(header: Option<string>, crypto: Crypto, users: seq<User>): (r: GateResult)
    ensures r.Admitted? <==> Auth(header, crypto, users).Admitted? && AdminAuth(Auth(header, crypto, users).user).None?
    ensures r.Admitted? ==> r.user.Some? && r.user.value.role == "admin"
    ensures Auth(header, crypto, users).Denied? ==> r == Auth(header, crypto, users)
    ensures Auth(header, crypto, users).Admitted? && r.Denied? ==> r.reply == AdminsOnlyReply
  {
    match Auth(header, crypto, users)
    case Denied(reply) => Denied(reply)
    case Admitted(u) =>
      match AdminAuth(u)
      case Some(reply) => Denied(reply)
      case None => Admitted(u)
  }

  /** A conventional `Bearer <token>` header hands `<token>` to verification. */
  lemma BearerHeaderYieldsToken(t: string)
    ensures BearerToken(Some(BearerPrefix + t)) == Some(t)
  {
    StripFirstOfPrefixed(BearerPrefix, t);
  }

  /** A header that never mentions `"Bearer "` is verified whole, scheme word included. */
  lemma HeaderWithoutBearerIsVerifiedWhole(h: string)
    requires forall k :: 0 <= k <= |h| ==> !OccursAt(h, BearerPrefix, k)
    ensures BearerToken(Some(h)) == Some(h)
  {
  }

  /** A valid token whose account is a student is stopped by the admin chain
      with 403, although `auth` alone admits it. */
  lemma StudentTokenRefusedByAdminChain(header: Option<string>, crypto: Crypto, users: seq<User>, j: nat)
    requires Auth(header, crypto, users).Admitted?
    requires j < |users| && users[j].role == "student"
    requires Auth(header, crypto, users).user == Some(View(users[j]))
    ensures AdminChain(header, crypto, users) == Denied(AdminsOnlyReply)
  {
  }
}

=== FILE: auth_routes.dfy ===
/** Registration and login (backend/routes/authRoutes.js, mounted at /api/auth). */
module AuthRoutes {
  import opened Base
  import opened Strings
  import opened Collection
  import opened Users
  import opened Tokens
  import AuthGate

  datatype RegisterRequest = RegisterRequest(name: Option<string>, email: string, password: string, role: Option<string>)
  datatype LoginRequest = LoginRequest(email: string, password: string, role: string)

  /** The JSON a successful register or login returns beside `success: true`. */
  datatype Session = Session(token: string, email: string, role: string, name: string)

  datatype AuthReply = AuthReply(reply: Reply, session: Option<Session>)
  datatype Registered = Registered(response: AuthReply, users: Store<User>)

  const UserExistsReply := Reply(BadRequest, "User already exists")
  const CreatedReply := Reply(Created, "User created successfully")
  const WrongPasswordReply := Reply(Unauthorized, "Incorrect password. Please try again.")
  const LoginOkReply := Reply(OK, "")

  /** The 401 message for a login whose (email, role) pair matches no account. */
  const NoAccountTail := " account found with this email. Please check your email and role, or register first."

  function NoAccountMessage(role: string): string
  {
    "No " + role + NoAccountTail
  }

  /** `user.name || user.email.split('@')[0]`: the stored name, or when it is
      missing or empty, the part of the email before its first `@`. */
  function DisplayName(u: User): (r: string)
    ensures Truthy(u.name) ==> r == u.name.value
    ensures !Truthy(u.name) ==> '@' !in r && |r| <= |u.email| && u.email == r + u.email[|r|..]
    ensures !Truthy(u.name) && |r| < |u.email| ==> u.email[|r|] == '@'
  {
    if Truthy(u.name) then u.name.value else FirstField(u.email, '@')
  }

  /** The session returned for an authenticated account. */
  function SessionFor(crypto: Crypto, u: User): Session
  {
    Session(Issue(crypto, u), u.email, u.role, DisplayName(u))
  }

  /** The account a successful registration stores: role defaults to
      `'student'`, the password is stored hashed, the id is fresh. */
  function NewAccount(users: Store<User>, req: RegisterRequest, crypto: Crypto): User
  {
    User(users.clock, req.name, req.email, crypto.hash(req.password), OrElse(req.role, "student"))
  }

  /** `POST /register`. The conflict check is on the email alone, whatever the
      role; a new account gets a token signed for one hour and a 201. */
  function Register(users: Store<User>, req: RegisterRequest, crypto: Crypto): (r: Registered)
    ensures r.response.reply.status == BadRequest <==> EmailTaken(users.items, req.email)
    ensures EmailTaken(users.items, req.email) ==>
              r.response == AuthReply(UserExistsReply, None) && r.users == users
    ensures !EmailTaken(users.items, req.email) ==> |r.users.items| == |users.items| + 1
    ensures !EmailTaken(users.items, req.email) ==>
              (var u := r.users.items[|users.items|];
               && r.response.reply == CreatedReply
               && r.users.items == users.items + [u]
               && u.id == users.clock && u.email == req.email
               && u.role == (if Truthy(req.role) then req.role.value else "student")
               && u.passwordHash == crypto.hash(req.password)
               && r.response.session == Some(Session(
                    crypto.sign(SignRequest(Claims(u.id, req.email, u.role), 3600)),
                    req.email, u.role, DisplayName(u))))
  {
    if EmailTaken(users.items, req.email) then
      Registered(AuthReply(UserExistsReply, None), users)
    else
      var u := NewAccount(users, req, crypto);
      Registered(AuthReply(CreatedReply, Some(SessionFor(crypto, u))), Store(users.items + [u], users.clock + 1))
  }

  /** The account login checks: `User.findOne({ email, role })`. */
  function LoginAccount(users: seq<User>, email: string, role: string): (r: Option<User>)
    ensures r.None? <==> forall j :: 0 <= j < |users| ==> users[j].email != email || users[j].role != role
    ensures r.Some? ==> r.value in users && r.value.email == email && r.value.role == role
  {
    FindFirst(users, (u: User) => u.email == email && u.role == role)
  }

  /** `POST /login`: look the account up by the (email, role) pair, then check
      the password. Both failures are 401s, told apart only by the message. */
  function Login(users: seq<User>, req: LoginRequest, crypto: Crypto): (r: AuthReply)
    ensures r.reply.status == OK || r.reply.status == Unauthorized
    ensures LoginAccount(users, req.email, req.role).None? ==>
              r == AuthReply(Reply(Unauthorized, NoAccountMessage(req.role)), None)
    ensures r.reply.status == OK <==>
              (var u := LoginAccount(users, req.email, req.role);
               u.Some? && crypto.passwordMatches(req.password, u.value.passwordHash))
    ensures (var u := LoginAccount(users, req.email, req.role);
             u.Some? && !crypto.passwordMatches(req.password, u.value.passwordHash)) ==>
              r == AuthReply(WrongPasswordReply, None)
    ensures r.reply.status == OK ==>
              (var u := LoginAccount(users, req.email, req.role).value;
               && r.reply == LoginOkReply
               && r.session.Some?
               && r.session.value.name == DisplayName(u)
               && r.session.value.email == req.email && r.session.value.role == req.role
               && r.session.value.token == crypto.sign(SignRequest(Claims(u.id, req.email, req.role), 3600)))
    ensures r.reply.status == Unauthorized ==> r.session.None?
  {
    match LoginAccount(users, req.email, req.role)
    case None => AuthReply(Reply(Unauthorized, NoAccountMessage(req.role)), None)
    case Some(u) =>
      if !crypto.passwordMatches(req.password, u.passwordHash) then AuthReply(WrongPasswordReply, None)
      else AuthReply(LoginOkReply, Some(SessionFor(crypto, u)))
  }

  /** Registering a second account with a taken email fails whatever role it
      asks for, while login tells accounts of different roles apart: the two
      handlers use different identity keys. */
  lemma RegisterKeyIsEmailLoginKeyIsPair(users: Store<User>, req: RegisterRequest, crypto: Crypto, j: nat)
    requires j < |users.items| && users.items[j].email == req.email
    requires forall k :: 0 <= k < |users.items| ==> users.items[k].role != "student"
    ensures Register(users, req, crypto).response.reply == UserExistsReply
    ensures Login(users.items, LoginRequest(req.email, req.password, "student"), crypto).reply
              == Reply(Unauthorized, NoAccountMessage("student"))
  {
  }

  /** Round trip: with well-behaved oracles, an account that registration
      created can log in with the same email, role and password, and gets a
      token carrying its id, email and role. */
  lemma RegisterThenLogin(users: Store<User>, req: RegisterRequest, crypto: Crypto)
    requires WellBehaved(crypto)
    requires !EmailTaken(users.items, req.email)
    ensures var r := Register(users, req, crypto);
            var role := OrElse(req.role, "student");
            var l := Login(r.users.items, LoginRequest(req.email, req.password, role), crypto);
            && l.reply == LoginOkReply
            && l.session == Some(Session(crypto.sign(SignRequest(Claims(users.clock, req.email, role), OneHour)),
                                          req.email, role, DisplayName(NewAccount(users, req, crypto))))
  {
    var r := Register(users, req, crypto);
    var u := NewAccount(users, req, crypto);
    var role := OrElse(req.role, "student");
    var items := r.users.items;
    assert items == users.items + [u];
    assert LoginAccount(items, req.email, role) == Some(u);
  }

  /** A freshly registered account's token passes the `auth` gate and
      hydrates to that same account. */
  lemma RegisteredTokenPassesAuth(users: Store<User>, req: RegisterRequest, crypto: Crypto)
    requires WellBehaved(crypto)
    requires !EmailTaken(users.items, req.email)
    requires forall j :: 0 <= j < |users.items| ==> users.items[j].id < users.clock
    ensures var r := Register(users, req, crypto);
            AuthGate.Auth(Some("Bearer " + r.response.session.value.token), crypto, r.users.items)
              == AuthGate.Admitted(Some(View(NewAccount(users, req, crypto))))
  {
    var r := Register(users, req, crypto);
    var u := NewAccount(users, req, crypto);
    var t := r.response.session.value.token;
    AuthGate.BearerHeaderYieldsToken(t);
    assert crypto.verify(t) == Some(ClaimsOf(u));
    assert FindById(r.users.items, u.id) == Some(u);
  }
}

=== FILE: base.dfy ===
/** Shared vocabulary of the campus backend model: optional values, JavaScript
    truthiness of request fields, and the HTTP reply every handler produces. */
module Base {

  /** An optional value; `None` stands for a field that is `undefined` (or a
      lookup that found no document). */
  datatype Option<+T> = None | Some(value: T)

  /** JavaScript truthiness of an optional string: `undefined` and `''` are falsy. */
  predicate Truthy(o: Option<string>)
  {
    o.Some? && o.value != ""
  }

  /** The JavaScript idiom `o || fallback` on an optional string. */
  function OrElse(o: Option<string>, fallback: string): string
  {
    if Truthy(o) then o.value else fallback
  }

  /** A query-string filter value constrains a listing only when it is present,
      non-empty and not the wildcard `'all'`. */
  predicate Constrains(v: Option<string>)
  {
    Truthy(v) && v.value != "all"
  }

  /** HTTP status codes used by the handlers. */
  const OK := 200
  const Created := 201
  const BadRequest := 400
  const Unauthorized := 401
  const Forbidden := 403
  const NotFound := 404
  const ServerError := 500

  /** What a handler sends back: a status code and the `message` of its JSON body. */
  datatype Reply = Reply(status: int, message: string)

  const ServerErrorReply := Reply(ServerError, "Server error")
}

=== FILE: claims_gate.dfy ===
/** The claims-trusting gate `authMiddleware`
    (backend/middleware/authMiddleware.js), and how it differs from `auth`. */
module ClaimsGate {
  import opened Base
  import opened Strings
  import opened Users
  import opened Tokens
  import AuthGate

  /** Stop with a reply, or call `next()` with the decoded claims as `req.user`. */
  datatype ClaimsResult = Refused(reply: Reply) | Attached(claims: Claims)

  const NoTokenReply := Reply(Unauthorized, "Access denied. No token.")
  const InvalidTokenReply := Reply(Forbidden, "Invalid token")

  /** `req.headers.authorization?.split(' ')[1]`: the second space-separated
      field; the scheme word in front of it is never checked. */
  function SplitToken(header: Option<string>): (r: Option<string>)
    ensures r.None? <==> header.None? || ' ' !in header.value
    ensures r.Some? ==> |Split(header.value, ' ')| >= 2 && r.value == Split(header.value, ' ')[1]
    ensures r.Some? ==> ' ' !in r.value
  {
    match header
    case None => None
    case Some(h) => SecondField(h, ' ')
  }

  /** The `authMiddleware` gate: no database lookup, the claims are trusted as signed. */
  function AuthMiddleware(header: Option<string>, crypto: Crypto): (r: ClaimsResult)
    ensures r == Refused(NoTokenReply) <==> SplitToken(header).None? || SplitToken(header).value == ""
    ensures r == Refused(InvalidTokenReply) <==>
              SplitToken(header).Some? && SplitToken(header).value != "" && crypto.verify(SplitToken(header).value).None?
    ensures r.Attached? ==> SplitToken(header).Some? && Some(r.claims) == crypto.verify(SplitToken(header).value)
  {
    match SplitToken(header)
    case None => Refused(NoTokenReply)
    case Some(token) =>
      if token == "" then Refused(NoTokenReply)
      else
        match crypto.verify(token)
        case None => Refused(InvalidTokenReply)
        case Some(claims) => Attached(claims)
  }

  /** Any scheme word followed by one space and a space-free token yields that token. */
  lemma SchemeWordIgnored(scheme: string, t: string)
    requires ' ' !in scheme && ' ' !in t
    ensures SplitToken(Some(scheme + " " + t)) == Some(t)
  {
    SplitJoin([scheme, t], ' ');
    assert Join([scheme, t], ' ') == scheme + " " + t;
  }

  /** Only the second field is taken: whatever follows it after another
      space is dropped, and a double space yields the empty field between the
      two spaces, which is a 401. */
  lemma TokenIsSecondField(crypto: Crypto)
    ensures SplitToken(Some("Bearer a b")) == Some("a")
    ensures SplitToken(Some("Bearer  a")) == Some("")
    ensures AuthMiddleware(Some("Bearer  a"), crypto) == Refused(NoTokenReply)
  {
    SecondFieldBetweenSeparators("Bearer", "a", " b", ' ');
    assert "Bearer" + [' '] + "a" + " b" == "Bearer a b";
    SecondFieldBetweenSeparators("Bearer", "", " a", ' ');
    assert "Bearer" + [' '] + "" + " a" == "Bearer  a";
  }

  /** On the same `Bearer <token>` header both gates verify the same token, but
      a token that fails verification is a 400 under `auth` and a 403 here;
      a token that passes attaches the live account under `auth` and the
      signed claims here. */
  lemma GatesDisagreeOnInvalidToken(t: string, crypto: Crypto, users: seq<User>)
    requires t != "" && ' ' !in t
    ensures crypto.verify(t).None? ==>
              AuthGate.Auth(Some("Bearer " + t), crypto, users) == AuthGate.Denied(AuthGate.InvalidTokenReply)
              && AuthMiddleware(Some("Bearer " + t), crypto) == Refused(InvalidTokenReply)
    ensures crypto.verify(t).Some? ==>
              AuthGate.Auth(Some("Bearer " + t), crypto, users)
                == AuthGate.Admitted(AuthGate.Hydrate(users, crypto.verify(t).value.userId))
              && AuthMiddleware(Some("Bearer " + t), crypto) == Attached(crypto.verify(t).value)
  {
    AuthGate.BearerHeaderYieldsToken(t);
    SchemeWordIgnored("Bearer", t);
    assert "Bearer" + " " + t == "Bearer " + t;
  }

  /** `"Bearer "` followed by nothing: the split yields an empty token, a 401. */
  lemma BareSchemeIsNoToken(crypto: Crypto)
    ensures AuthMiddleware(Some("Bearer "), crypto) == Refused(NoTokenReply)
  {
    SchemeWordIgnored("Bearer", "");
    assert "Bearer" + " " + "" == "Bearer ";
  }
}

=== FILE: collection.dfy ===
/** An in-memory stand-in for one MongoDB collection: documents in natural
    (insertion) order plus a logical clock that hands out fresh ids and
    `createdAt` stamps. `findOne` is "first match in natural order", `find`
    is a filter, `sort` is a stable reordering, `$group` with `$sum: 1` is a count. */
module Collection {
  import opened Base

  /** A collection's documents and the next value of its logical clock. */
  datatype Store<T> = Store(items: seq<T>, clock: nat)

  /** A writing handler's outcome: its reply and the collection afterwards. */
  datatype Step<T> = Step(reply: Reply, store: Store<T>)

  /** A listing handler's outcome: its reply and the documents it returns. */
  datatype Listing<T> = Listing(reply: Reply, items: seq<T>)

  /** Index of the first document satisfying `p`, as `findOne` picks it. */
  function FirstIndex<T>(s: seq<T>, p: T -> bool): (r: Option<nat>)
    ensures r.Some? ==> r.value < |s| && p(s[r.value])
    ensures r.Some? ==> forall j :: 0 <= j < r.value ==> !p(s[j])
    ensures r.None? ==> forall j :: 0 <= j < |s| ==> !p(s[j])
    decreases |s|
  {
    if s == [] then None
    else if p(s[0]) then Some(0)
    else
      match FirstIndex(s[1..], p)
      case None => None
      case Some(k) => Some(k + 1)
  }

  /** `findOne(filter)`: the first matching document, if any. */
  function FindFirst<T>(s: seq<T>, p: T -> bool): (r: Option<T>)
    ensures r.Some? ==> r.value in s && p(r.value)
    ensures r.None? <==> forall j :: 0 <= j < |s| ==> !p(s[j])
  {
    match FirstIndex(s, p)
    case None => None
    case Some(k) => Some(s[k])
  }

  /** `find(filter)` before sorting: exactly the matching documents, each as
      often as it occurs in `s`. */
  function Filter<T(!new)>(s: seq<T>, p: T -> bool): (r: seq<T>)
    ensures forall x :: multiset(r)[x] == if p(x) then multiset(s)[x] else 0
    ensures forall j :: 0 <= j < |r| ==> p(r[j])
    ensures |r| <= |s|
    decreases |s|
  {
    if s == [] then []
    else
      var rest := Filter(s[1..], p);
      assert s == [s[0]] + s[1..];
      if p(s[0]) then [s[0]] + rest else rest
  }

  /** Number of documents satisfying `p`. */
  function Count<T(!new)>(s: seq<T>, p: T -> bool): nat
  {
    |Filter(s, p)|
  }

  /** `deleteOne` of the document at index `i`. */
  function RemoveAt<T>(s: seq<T>, i: nat): (r: seq<T>)
    requires i < |s|
    ensures |r| == |s| - 1
    ensures forall j :: 0 <= j < i ==> r[j] == s[j]
    ensures forall j :: i <= j < |r| ==> r[j] == s[j + 1]
    ensures multiset(r) == multiset(s) - multiset{s[i]}
  {
    assert s == s[..i] + [s[i]] + s[i + 1..];
    s[..i] + s[i + 1..]
  }

  /** No two documents share a key: the effect of a unique index. */
  predicate UniqueBy<T, K(==)>(s: seq<T>, key: T -> K)
  {
    forall i, j :: 0 <= i < j < |s| ==> key(s[i]) != key(s[j])
  }

  /** Some document in `s` has key `k`. */
  predicate HasKey<T, K(==)>(s: seq<T>, key: T -> K, k: K)
  {
    exists j :: 0 <= j < |s| && key(s[j]) == k
  }

  lemma UniqueAppend<T, K>(s: seq<T>, x: T, key: T -> K)
    requires UniqueBy(s, key) && !HasKey(s, key, key(x))
    ensures UniqueBy(s + [x], key)
  {
    var t := s + [x];
    forall i, j | 0 <= i < j < |t|
      ensures key(t[i]) != key(t[j])
    {
      if j == |s| {
        assert t[i] == s[i];
      } else {
        assert t[i] == s[i] && t[j] == s[j];
      }
    }
  }

  lemma UniqueRemove<T, K>(s: seq<T>, i: nat, key: T -> K)
    requires i < |s| && UniqueBy(s, key)
    ensures UniqueBy(RemoveAt(s, i), key)
    ensures !HasKey(RemoveAt(s, i), key, key(s[i]))
  {
    var r := RemoveAt(s, i);
    forall a, b | 0 <= a < b < |r|
      ensures key(r[a]) != key(r[b])
    {
      var a' := if a < i then a else a + 1;
      var b' := if b < i then b else b + 1;
      assert r[a] == s[a'] && r[b] == s[b'] && a' < b';
    }
  }

  lemma UniqueReplace<T, K>(s: seq<T>, i: nat, x: T, key: T -> K)
    requires i < |s| && UniqueBy(s, key) && key(x) == key(s[i])
    ensures UniqueBy(s[i := x], key)
  {
    var t := s[i := x];
    forall a, b | 0 <= a < b < |t|
      ensures key(t[a]) != key(t[b])
    {
      assert key(t[a]) == key(s[a]) && key(t[b]) == key(s[b]);
    }
  }

  /** In a collection unique on `key`, the document found by key is the only one with it. */
  lemma UniqueFound<T, K>(s: seq<T>, key: T -> K, i: nat, j: nat)
    requires UniqueBy(s, key) && i < |s| && j < |s| && key(s[i]) == key(s[j])
    ensures i == j
  {
  }

  /** Ids are unique and every one was handed out by the clock, so the clock
      value is always a fresh id. */
  predicate IdsFresh<T>(st: Store<T>, id: T -> nat)
  {
    UniqueBy(st.items, id) && forall j :: 0 <= j < |st.items| ==> id(st.items[j]) < st.clock
  }

  lemma IdsFreshAppend<T>(st: Store<T>, x: T, id: T -> nat)
    requires IdsFresh(st, id) && id(x) == st.clock
    ensures IdsFresh(Store(st.items + [x], st.clock + 1), id)
  {
    UniqueAppend(st.items, x, id);
  }

  lemma IdsFreshRemove<T>(st: Store<T>, k: nat, id: T -> nat)
    requires IdsFresh(st, id) && k < |st.items|
    ensures IdsFresh(Store(RemoveAt(st.items, k), st.clock), id)
    ensures !HasKey(RemoveAt(st.items, k), id, id(st.items[k]))
  {
    UniqueRemove(st.items, k, id);
  }

  lemma IdsFreshReplace<T>(st: Store<T>, k: nat, x: T, id: T -> nat, clock: nat)
    requires IdsFresh(st, id) && k < |st.items| && id(x) == id(st.items[k]) && st.clock <= clock
    ensures IdsFresh(Store(st.items[k := x], clock), id)
  {
    UniqueReplace(st.items, k, x, id);
  }

  /** `findOne` by id in a collection with unique ids finds THE document with that id. */
  lemma FirstIndexById<T>(st: Store<T>, id: T -> nat, k: nat, n: nat)
    requires IdsFresh(st, id) && k < |st.items| && id(st.items[k]) == n
    ensures FirstIndex(st.items, (x: T) => id(x) == n) == Some(k)
  {
  }

  /** A count is positive exactly when some document matches. */
  lemma CountPositiveIff<T(!new)>(s: seq<T>, p: T -> bool)
    ensures Count(s, p) > 0 <==> exists j :: 0 <= j < |s| && p(s[j])
  {
    var r := Filter(s, p);
    if exists j :: 0 <= j < |s| && p(s[j]) {
      var j :| 0 <= j < |s| && p(s[j]);
      assert multiset(r)[s[j]] == multiset(s)[s[j]] > 0;
    }
    if |r| > 0 {
      assert multiset(r)[r[0]] > 0;
      assert r[0] in multiset(s);
      var j :| 0 <= j < |s| && s[j] == r[0];
    }
  }

  /** `le` is a total preorder, the shape of every sort key spec used here. */
  ghost predicate TotalPreorder<T(!new)>(le: (T, T) -> bool)
  {
    && (forall a, b :: le(a, b) || le(b, a))
    && (forall a, b, c :: le(a, b) && le(b, c) ==> le(a, c))
  }

  predicate Sorted<T>(s: seq<T>, le: (T, T) -> bool)
  {
    forall i, j :: 0 <= i < j < |s| ==> le(s[i], s[j])
  }

  /** Putting a lower bound of a sorted sequence in front keeps it sorted. */
  lemma PrependSorted<T>(a: T, s: seq<T>, le: (T, T) -> bool)
    requires Sorted(s, le)
    requires forall j :: 0 <= j < |s| ==> le(a, s[j])
    ensures Sorted([a] + s, le)
  {
    forall i, j | 0 <= i < j < |[a] + s|
      ensures le(([a] + s)[i], ([a] + s)[j])
    {
      assert ([a] + s)[j] == s[j - 1];
    }
  }

  /** The head of a sorted `s` that `x` is not below bounds `x` and the
      rest of `s`, hence any arrangement `rest` of them. */
  lemma HeadBoundsRest<T(!new)>(x: T, s: seq<T>, rest: seq<T>, le: (T, T) -> bool)
    requires TotalPreorder(le) && Sorted(s, le) && s != [] && !le(x, s[0])
    requires multiset(rest) == multiset(s[1..]) + multiset{x}
    ensures forall j :: 0 <= j < |rest| ==> le(s[0], rest[j])
  {
    assert le(s[0], x);
    forall j | 0 <= j < |rest|
      ensures le(s[0], rest[j])
    {
      assert rest[j] in multiset(rest);
      if rest[j] != x {
        assert rest[j] in multiset(s[1..]);
        var k :| 0 <= k < |s[1..]| && s[1..][k] == rest[j];
        assert le(s[0], s[k + 1]);
      }
    }
  }

  /** Inserts `x` before the first element it is `le`-below. */
  function Insert<T(!new)>(x: T, s: seq<T>, le: (T, T) -> bool): (r: seq<T>)
    ensures multiset(r) == multiset(s) + multiset{x}
    ensures |r| == |s| + 1
    ensures TotalPreorder(le) && Sorted(s, le) ==> Sorted(r, le)
    decreases |s|
  {
    if s == [] then [x]
    else if le(x, s[0]) then
      assert TotalPreorder(le) && Sorted(s, le) ==> Sorted([x] + s, le) by {
        if TotalPreorder(le) && Sorted(s, le) {
          PrependSorted(x, s, le);
        }
      }
      [x] + s
    else
      var rest := Insert(x, s[1..], le);
      assert s == [s[0]] + s[1..];
      assert TotalPreorder(le) && Sorted(s, le) ==> Sorted([s[0]] + rest, le) by {
        if TotalPreorder(le) && Sorted(s, le) {
          HeadBoundsRest(x, s, rest, le);
          PrependSorted(s[0], rest, le);
        }
      }
      [s[0]] + rest
  }

  /** Insertion sort: the same documents, arranged in `le` order. This is
      what `.sort(...)` does to the documents a `find` returns. */
  function SortBy<T(!new)>(s: seq<T>, le: (T, T) -> bool): (r: seq<T>)
    ensures multiset(r) == multiset(s)
    ensures |r| == |s|
    ensures TotalPreorder(le) ==> Sorted(r, le)
    decreases |s|
  {
    if s == [] then []
    else
      assert s == [s[0]] + s[1..];
      Insert(s[0], SortBy(s[1..], le), le)
  }
}

=== FILE: complaint_routes.dfy ===
/** The complaint handlers (backend/routes/complaints.js, mounted at
    /api/complaints). Listing, creating and the reachable status update are
    public; priority and statistics run behind `auth` and `adminAuth`, delete
    behind `auth`. Of the two `PUT /:id/status` handlers only the first,
    public one is ever reached; the admin one is modelled as `SetStatusAdmin`. */
module ComplaintRoutes {
  import opened Base
  import opened Strings
  import opened Collection
  import opened Users
  import opened Tokens
  import opened AuthGate
  import opened ComplaintSchema

  const NoStudentReply := Reply(BadRequest, "No student user found. Please create a student user first.")
  const RegisteredReply := Reply(Created, "Complaint registered successfully")
  const NotFoundReply := Reply(NotFound, "Complaint not found")
  const StatusUpdatedReply := Reply(OK, "Complaint status updated successfully")
  const PriorityUpdatedReply := Reply(OK, "Complaint priority updated successfully")
  const NotAuthorizedReply := Reply(Forbidden, "Not authorized")
  const DeletedReply := Reply(OK, "Complaint deleted successfully")
  const ListedReply := Reply(OK, "")

  /** The `find` filter of `GET /`: `status` and `category` each constrain
      only when present and not `'all'`. */
  predicate Matches(c: Complaint, status: Option<string>, category: Option<string>)
  {
    && (Constrains(status) ==> StatusName(c.status) == status.value)
    && (Constrains(category) ==> CategoryName(c.category) == category.value)
  }

  /** `GET /`: the matching complaints, newest first. */
  function ListComplaints(st: Store<Complaint>, status: Option<string>, category: Option<string>): (r: Listing<Complaint>)
    ensures r.reply == ListedReply
    ensures forall c :: multiset(r.items)[c] == if Matches(c, status, category) then multiset(st.items)[c] else 0
    ensures Sorted(r.items, NewestFirst)
  {
    NewestFirstIsTotalPreorder();
    Listing(ListedReply, SortBy(Filter(st.items, (c: Complaint) => Matches(c, status, category)), NewestFirst))
  }

  /** With no filter, or with `'all'` for both, every complaint is listed. */
  lemma UnfilteredListingIsEverything(st: Store<Complaint>, status: Option<string>, category: Option<string>)
    requires !Constrains(status) && !Constrains(category)
    ensures multiset(ListComplaints(st, status, category).items) == multiset(st.items)
  {
    var r := ListComplaints(st, status, category);
    assert forall c :: multiset(r.items)[c] == multiset(st.items)[c];
  }

  /** A status filter naming no enum value matches nothing: the listing is empty. */
  lemma UnknownStatusListsNothing(st: Store<Complaint>, status: Option<string>, category: Option<string>)
    requires Constrains(status) && ParseStatus(status.value).None?
    ensures ListComplaints(st, status, category).items == []
  {
  }

  datatype CreateRequest = CreateRequest(
    title: string, description: string, category: string,
    priority: Option<string>, studentEmail: Option<string>)

  /** The account a complaint is filed for: by `studentEmail` (default
      `student@test.com`), else any student. */
  function Complainant(users: seq<User>, studentEmail: Option<string>): Option<User>
  {
    ResolveUser(users, studentEmail, "student@test.com", "student")
  }

  /** `POST /`: resolve the student, default the priority to `'medium'`,
      validate and save. A validation failure is a 500. */
  function CreateComplaint(users: seq<User>, st: Store<Complaint>, req: CreateRequest): (r: Step<Complaint>)
    ensures Complainant(users, req.studentEmail).None? ==> r == Step(NoStudentReply, st)
    ensures r.reply.status == Created <==>
              (&& Complainant(users, req.studentEmail).Some?
               && Trim(req.title) != "" && req.description != ""
               && ParseCategory(req.category).Some?
               && IsPriority(if Truthy(req.priority) then req.priority.value else "medium"))
    ensures r.reply.status != Created ==> r.store == st
    ensures r.reply.status == Created ==>
              (&& r.reply == RegisteredReply
               && |r.store.items| == |st.items| + 1 && r.store.clock == st.clock + 1
               && r.store.items[..|st.items|] == st.items
               && var c := r.store.items[|st.items|];
                  && c.id == st.clock && c.createdAt == st.clock
                  && c.student == Complainant(users, req.studentEmail).value.id
                  && c.title == Trim(req.title) && c.description == req.description
                  && CategoryName(c.category) == req.category
                  && c.priority == (if Truthy(req.priority) then req.priority.value else "medium")
                  && c.status == Pending && c.assignedTo.None? && c.resolvedAt.None?)
  {
    match Complainant(users, req.studentEmail)
    case None => Step(NoStudentReply, st)
    case Some(u) =>
      match Build(st.clock, req.title, req.description, req.category, OrElse(req.priority, DefaultPriority), u.id)
      case None => Step(ServerErrorReply, st)
      case Some(c) =>
        var items := st.items + [c];
        assert items[..|st.items|] == st.items;
        Step(RegisteredReply, Store(items, st.clock + 1))
  }

  lemma CreateComplaintPreservesValid(users: seq<User>, st: Store<Complaint>, req: CreateRequest)
    requires Valid(st)
    ensures Valid(CreateComplaint(users, st, req).store)
  {
    match Complainant(users, req.studentEmail)
    case None =>
    case Some(u) =>
      match Build(st.clock, req.title, req.description, req.category, OrElse(req.priority, DefaultPriority), u.id)
      case None =>
      case Some(c) => IdsFreshAppend(st, c, Id);
  }

  /** `complaint.status = status`, and `resolvedAt = new Date()` when the new
      status is resolved; `stamp` stands for the date. */
  function Restatus(c: Complaint, s: Status, stamp: nat): Complaint
  {
    c.(status := s, resolvedAt := if s == Resolved then Some(stamp) else c.resolvedAt)
  }

  /** The clock after a status change: it advances only when a stamp was taken. */
  function ClockAfter(clock: nat, s: Status): nat
  {
    if s == Resolved then clock + 1 else clock
  }

  /** `k` is where `findById(id)` stops: the first complaint with this id. */
  predicate FirstWithId(items: seq<Complaint>, id: nat, k: int)
  {
    0 <= k < |items| && items[k].id == id && forall j :: 0 <= j < k ==> items[j].id != id
  }

  /** `PUT /:id/status`, the reachable one: public. An unknown id is a 404.
      `save()` validates the whole loaded document, so a value outside the
      status enum, or a stored field the validators refuse (a priority left
      outside its enum), fails validation (500); an untrimmed stored title
      does not, since trimming is a setter. Only `status` changes,
      and `resolvedAt` is set exactly when the new status is resolved;
      otherwise it keeps its value. */
  function SetStatus(st: Store<Complaint>, id: nat, status: string): (r: Step<Complaint>)
    ensures r.reply == NotFoundReply <==> forall j :: 0 <= j < |st.items| ==> st.items[j].id != id
    ensures r.reply.status == OK <==>
              ParseStatus(status).Some? && exists k :: FirstWithId(st.items, id, k) && PassesValidators(st.items[k])
    ensures r.reply in {StatusUpdatedReply, NotFoundReply, ServerErrorReply}
    ensures r.reply.status != OK ==> r.store == st
    ensures r.reply.status == OK ==>
              (&& r.reply == StatusUpdatedReply
               && r.store.clock >= st.clock && |r.store.items| == |st.items|
               && exists k :: 0 <= k < |st.items| && st.items[k].id == id
                    && var c := r.store.items[k];
                       && r.store.items == st.items[k := c]
                       && StatusName(c.status) == status
                       && c.resolvedAt == (if status == "resolved" then Some(st.clock) else st.items[k].resolvedAt)
                       && c == st.items[k].(status := c.status, resolvedAt := c.resolvedAt))
  {
    match FirstIndex(st.items, (c: Complaint) => c.id == id)
    case None => Step(NotFoundReply, st)
    case Some(k) =>
      match ParseStatus(status)
      case None => Step(ServerErrorReply, st)
      case Some(s) =>
        var c := Restatus(st.items[k], s, st.clock);
        assert FirstWithId(st.items, id, k);
        assert forall k' :: FirstWithId(st.items, id, k') ==> k' == k;
        if !PassesValidators(c) then Step(ServerErrorReply, st)
        else Step(StatusUpdatedReply, Store(st.items[k := c], ClockAfter(st.clock, s)))
  }

  /** Resolving twice stamps twice: a `'resolved'` update on a complaint that
      is already resolved overwrites `resolvedAt` with the current stamp, since
      the handler does not look at the current status. */
  lemma ResolvingAgainRestamps(st: Store<Complaint>, k: nat)
    requires Valid(st) && k < |st.items| && st.items[k].status == Resolved
    ensures var r := SetStatus(st, st.items[k].id, "resolved");
            && r.reply == StatusUpdatedReply
            && r.store.items[k].status == Resolved
            && r.store.items[k].resolvedAt == Some(st.clock)
            && r.store.clock == st.clock + 1
  {
    FirstIndexById(st, Id, k, st.items[k].id);
  }

  /** Trimming is a setter, not a validator: a stored title with a leading
      space does not stop a later status update. */
  lemma UntrimmedTitleDoesNotBlockStatus()
    ensures var c := Complaint(0, " Leak", "The tap leaks", Water, Pending, 7, None, "medium", None, 0);
            SetStatus(Store([c], 1), 0, "resolved").reply == StatusUpdatedReply
  {
    var c := Complaint(0, " Leak", "The tap leaks", Water, Pending, 7, None, "medium", None, 0);
    assert FirstWithId([c], 0, 0);
  }

  /** The shadowed admin `PUT /:id/status`: as the public one, and
      `assignedTo` changes only when one is given. */
  function SetStatusAdmin(st: Store<Complaint>, id: nat, status: string, assignedTo: Option<UserId>): (r: Step<Complaint>)
    ensures r.reply == NotFoundReply <==> forall j :: 0 <= j < |st.items| ==> st.items[j].id != id
    ensures r.reply.status == OK <==>
              ParseStatus(status).Some? && exists k :: FirstWithId(st.items, id, k) && PassesValidators(st.items[k])
    ensures r.reply in {StatusUpdatedReply, NotFoundReply, ServerErrorReply}
    ensures r.reply.status != OK ==> r.store == st
    ensures r.reply.status == OK ==>
              (&& r.reply == StatusUpdatedReply
               && r.store.clock >= st.clock && |r.store.items| == |st.items|
               && exists k :: 0 <= k < |st.items| && st.items[k].id == id
                    && var c := r.store.items[k];
                       && r.store.items == st.items[k := c]
                       && StatusName(c.status) == status
                       && c.resolvedAt == (if status == "resolved" then Some(st.clock) else st.items[k].resolvedAt)
                       && c.assignedTo == (if assignedTo.Some? then assignedTo else st.items[k].assignedTo)
                       && c == st.items[k].(status := c.status, resolvedAt := c.resolvedAt, assignedTo := c.assignedTo))
  {
    match FirstIndex(st.items, (c: Complaint) => c.id == id)
    case None => Step(NotFoundReply, st)
    case Some(k) =>
      match ParseStatus(status)
      case None => Step(ServerErrorReply, st)
      case Some(s) =>
        var prev := st.items[k];
        var c := Restatus(prev, s, st.clock).(assignedTo := if assignedTo.Some? then assignedTo else prev.assignedTo);
        assert FirstWithId(st.items, id, k);
        assert forall k' :: FirstWithId(st.items, id, k') ==> k' == k;
        if !PassesValidators(c) then Step(ServerErrorReply, st)
        else Step(StatusUpdatedReply, Store(st.items[k := c], ClockAfter(st.clock, s)))
  }

  lemma SetStatusPreservesValid(st: Store<Complaint>, id: nat, status: string)
    requires Valid(st)
    ensures Valid(SetStatus(st, id, status).store)
  {
    var r := SetStatus(st, id, status);
    if r.reply.status == OK {
      var k :| 0 <= k < |st.items| && st.items[k].id == id && r.store.items == st.items[k := r.store.items[k]]
               && r.store.items[k] == st.items[k].(status := r.store.items[k].status, resolvedAt := r.store.items[k].resolvedAt);
      IdsFreshReplace(st, k, r.store.items[k], Id, r.store.clock);
    }
  }

  lemma SetStatusAdminPreservesValid(st: Store<Complaint>, id: nat, status: string, assignedTo: Option<UserId>)
    requires Valid(st)
    ensures Valid(SetStatusAdmin(st, id, status, assignedTo).store)
  {
    var r := SetStatusAdmin(st, id, status, assignedTo);
    if r.reply.status == OK {
      var k :| 0 <= k < |st.items| && st.items[k].id == id && r.store.items == st.items[k := r.store.items[k]]
               && r.store.items[k] == st.items[k].(status := r.store.items[k].status,
                                                    resolvedAt := r.store.items[k].resolvedAt,
                                                    assignedTo := r.store.items[k].assignedTo);
      IdsFreshReplace(st, k, r.store.items[k], Id, r.store.clock);
    }
  }

  /** `PUT /:id/priority` as written: `findByIdAndUpdate(id, { priority })`
      without `runValidators`, so the enum is not checked and any string is
      stored. An unknown id is a 404; only `priority` changes. */
  function SetPriority(st: Store<Complaint>, id: nat, priority: string): (r: Step<Complaint>)
    ensures r.reply == NotFoundReply <==> forall j :: 0 <= j < |st.items| ==> st.items[j].id != id
    ensures r.reply != NotFoundReply ==> r.reply == PriorityUpdatedReply
    ensures r.reply == NotFoundReply ==> r.store == st
    ensures r.reply == PriorityUpdatedReply ==>
              (&& r.store.clock == st.clock
               && exists k :: 0 <= k < |st.items| && st.items[k].id == id
                    && r.store.items == st.items[k := st.items[k].(priority := priority)])
  {
    match FirstIndex(st.items, (c: Complaint) => c.id == id)
    case None => Step(NotFoundReply, st)
    case Some(k) => Step(PriorityUpdatedReply, Store(st.items[k := st.items[k].(priority := priority)], st.clock))
  }

  /** The discrepancy: on any valid collection, setting an existing
      complaint's priority to a value outside the enum succeeds and leaves a
      document that the schema would reject. */
  lemma SetPriorityStoresNonEnumValue(st: Store<Complaint>, k: nat, priority: string)
    requires Valid(st) && k < |st.items| && !IsPriority(priority)
    ensures SetPriority(st, st.items[k].id, priority).reply == PriorityUpdatedReply
    ensures SetPriority(st, st.items[k].id, priority).store.items[k].priority == priority
    ensures !Valid(SetPriority(st, st.items[k].id, priority).store)
  {
    FirstIndexById(st, Id, k, st.items[k].id);
    assert !Conforms(SetPriority(st, st.items[k].id, priority).store.items[k]);
  }

  /** A concrete instance: an `'urgent'` priority is accepted and stored. */
  lemma UrgentPriorityIsStored()
    ensures var c := Complaint(0, "Leak", "The tap leaks", Water, Pending, 7, None, "medium", None, 0);
            var st := Store([c], 1);
            && Valid(st)
            && SetPriority(st, 0, "urgent") == Step(PriorityUpdatedReply, Store([c.(priority := "urgent")], 1))
  {
    var c := Complaint(0, "Leak", "The tap leaks", Water, Pending, 7, None, "medium", None, 0);
    assert IsTrimmed(c.title);
  }

  /** `PUT /:id/priority` as evidently intended: the update with
      `runValidators: true`. Update validators run before the document is
      looked up, so a value outside the enum is a ValidationError (500)
      whatever the id; otherwise as `SetPriority`. */
  function SetPriorityValidated(st: Store<Complaint>, id: nat, priority: string): (r: Step<Complaint>)
    ensures !IsPriority(priority) ==> r == Step(ServerErrorReply, st)
    ensures IsPriority(priority) ==>
              (r.reply == NotFoundReply <==> forall j :: 0 <= j < |st.items| ==> st.items[j].id != id)
    ensures r.reply != PriorityUpdatedReply ==> r.store == st
    ensures r.reply == PriorityUpdatedReply ==>
              (&& IsPriority(priority) && r.store.clock == st.clock
               && exists k :: 0 <= k < |st.items| && st.items[k].id == id
                    && r.store.items == st.items[k := st.items[k].(priority := priority)])
  {
    if !IsPriority(priority) then Step(ServerErrorReply, st) else SetPriority(st, id, priority)
  }

  /** The corrected update keeps every stored priority in the enum. */
  lemma SetPriorityValidatedPreservesValid(st: Store<Complaint>, id: nat, priority: string)
    requires Valid(st)
    ensures Valid(SetPriorityValidated(st, id, priority).store)
  {
    var r := SetPriorityValidated(st, id, priority);
    if r.reply == PriorityUpdatedReply {
      var k :| 0 <= k < |st.items| && st.items[k].id == id
               && r.store.items == st.items[k := st.items[k].(priority := priority)];
      IdsFreshReplace(st, k, st.items[k].(priority := priority), Id, st.clock);
    }
  }

  /** `DELETE /:id` behind `auth`. The lookup comes first (404); then a
      missing `req.user` throws (500); a student may delete only a complaint
      filed for them (403), every other role may delete any complaint.
      Ids are unique, as `_id` is in every MongoDB collection. */
  function DeleteComplaint(st: Store<Complaint>, user: Option<Principal>, id: nat): (r: Step<Complaint>)
    requires UniqueBy(st.items, Id)
    ensures r.reply == NotFoundReply <==> forall j :: 0 <= j < |st.items| ==> st.items[j].id != id
    ensures r.reply == NotAuthorizedReply <==>
              (exists j :: 0 <= j < |st.items| && st.items[j].id == id
                 && user.Some? && user.value.role == "student" && st.items[j].student != user.value.id)
    ensures (exists j :: 0 <= j < |st.items| && st.items[j].id == id) && user.None? ==> r == Step(ServerErrorReply, st)
    ensures r.reply.status == OK <==>
              (exists j :: 0 <= j < |st.items| && st.items[j].id == id
                 && user.Some? && (user.value.role != "student" || st.items[j].student == user.value.id))
    ensures r.reply != DeletedReply ==> r.store == st
    ensures r.reply == DeletedReply ==>
              (&& r.store.clock == st.clock
               && exists k :: 0 <= k < |st.items| && st.items[k].id == id && r.store.items == RemoveAt(st.items, k))
  {
    match FirstIndex(st.items, (c: Complaint) => c.id == id)
    case None => Step(NotFoundReply, st)
    case Some(k) =>
      match user
      case None => Step(ServerErrorReply, st)
      case Some(p) =>
        if p.role == "student" && st.items[k].student != p.id then Step(NotAuthorizedReply, st)
        else Step(DeletedReply, Store(RemoveAt(st.items, k), st.clock))
  }

  lemma DeleteComplaintPreservesValid(st: Store<Complaint>, user: Option<Principal>, id: nat)
    requires Valid(st)
    ensures Valid(DeleteComplaint(st, user, id).store)
  {
    match FirstIndex(st.items, (c: Complaint) => c.id == id)
    case None =>
    case Some(k) => IdsFreshRemove(st, k, Id);
  }

  /** The number of complaints with this status. */
  function StatusCount(items: seq<Complaint>, s: Status): nat
  {
    Count(items, (c: Complaint) => c.status == s)
  }

  /** The number of complaints in this category. */
  function CategoryCount(items: seq<Complaint>, c: Category): nat
  {
    Count(items, (x: Complaint) => x.category == c)
  }

  /** The two `$group` results of `GET /stats`, as maps from value to count. */
  datatype Stats = Stats(statusStats: map<Status, nat>, categoryStats: map<Category, nat>)

  /** `$group` by status and by category with `$sum: 1`: one group per value
      that occurs, holding the number of complaints with that value. */
  function ComplaintStats(items: seq<Complaint>): (r: Stats)
    ensures forall s: Status :: s in r.statusStats <==> exists j :: 0 <= j < |items| && items[j].status == s
    ensures forall c: Category :: c in r.categoryStats <==> exists j :: 0 <= j < |items| && items[j].category == c
    ensures forall s :: s in r.statusStats ==> r.statusStats[s] == StatusCount(items, s) > 0
    ensures forall c :: c in r.categoryStats ==> r.categoryStats[c] == CategoryCount(items, c) > 0
  {
    forall s: Status
      ensures StatusCount(items, s) > 0 <==> exists j :: 0 <= j < |items| && items[j].status == s
    {
      CountPositiveIff(items, (c: Complaint) => c.status == s);
    }
    forall c: Category
      ensures CategoryCount(items, c) > 0 <==> exists j :: 0 <= j < |items| && items[j].category == c
    {
      CountPositiveIff(items, (x: Complaint) => x.category == c);
    }
    Stats(
      map s: Status | StatusCount(items, s) > 0 :: StatusCount(items, s),
      map c: Category | CategoryCount(items, c) > 0 :: CategoryCount(items, c))
  }

  /** A group's count, 0 for a value with no group. */
  function GroupCount<K>(m: map<K, nat>, k: K): nat
  {
    if k in m then m[k] else 0
  }

  /** Every complaint falls in exactly one status group. */
  lemma {:induction false} StatusCountsPartition(items: seq<Complaint>)
    ensures StatusCount(items, Pending) + StatusCount(items, InProgress) + StatusCount(items, Resolved) == |items|
    decreases |items|
  {
    if items != [] {
      StatusCountsPartition(items[1..]);
    }
  }

  /** Every complaint falls in exactly one category group. */
  lemma {:induction false} CategoryCountsPartition(items: seq<Complaint>)
    ensures CategoryCount(items, Water) + CategoryCount(items, Electricity) + CategoryCount(items, Cleaning)
            + CategoryCount(items, Maintenance) + CategoryCount(items, Other) == |items|
    decreases |items|
  {
    if items != [] {
      CategoryCountsPartition(items[1..]);
    }
  }

  /** Both groupings account for every complaint exactly once. */
  lemma StatsCoverEveryComplaint(items: seq<Complaint>)
    ensures var r := ComplaintStats(items);
            GroupCount(r.statusStats, Pending) + GroupCount(r.statusStats, InProgress)
            + GroupCount(r.statusStats, Resolved) == |items|
    ensures var r := ComplaintStats(items);
            GroupCount(r.categoryStats, Water) + GroupCount(r.categoryStats, Electricity)
            + GroupCount(r.categoryStats, Cleaning) + GroupCount(r.categoryStats, Maintenance)
            + GroupCount(r.categoryStats, Other) == |items|
  {
    StatusCountsPartition(items);
    CategoryCountsPartition(items);
    StatusGroupIsCount(items, Pending);
    StatusGroupIsCount(items, InProgress);
    StatusGroupIsCount(items, Resolved);
    CategoryGroupIsCount(items, Water);
    CategoryGroupIsCount(items, Electricity);
    CategoryGroupIsCount(items, Cleaning);
    CategoryGroupIsCount(items, Maintenance);
    CategoryGroupIsCount(items, Other);
  }

  /** A status with no group has no complaints. */
  lemma StatusGroupIsCount(items: seq<Complaint>, s: Status)
    ensures GroupCount(ComplaintStats(items).statusStats, s) == StatusCount(items, s)
  {
    CountPositiveIff(items, (c: Complaint) => c.status == s);
  }

  /** A category with no group has no complaints. */
  lemma CategoryGroupIsCount(items: seq<Complaint>, c: Category)
    ensures GroupCount(ComplaintStats(items).categoryStats, c) == CategoryCount(items, c)
  {
    CountPositiveIff(items, (x: Complaint) => x.category == c);
  }

  datatype StatsReply = StatsReply(reply: Reply, stats: Option<Stats>)

  /** `GET /stats` behind `auth` and `adminAuth`. */
  function StatsRoute(st: Store<Complaint>, users: seq<User>, crypto: Crypto, header: Option<string>): (r: StatsReply)
    ensures AdminChain(header, crypto, users).Denied? ==>
              r == StatsReply(AdminChain(header, crypto, users).reply, None)
    ensures AdminChain(header, crypto, users).Admitted? ==>
              r == StatsReply(ListedReply, Some(ComplaintStats(st.items)))
  {
    match AdminChain(header, crypto, users)
    case Denied(reply) => StatsReply(reply, None)
    case Admitted(_) => StatsReply(ListedReply, Some(ComplaintStats(st.items)))
  }

  /** The corrected priority route: `auth`, `adminAuth`, then the validated
      update. The route as registered is `PriorityRouteAsWritten`. */
  function PriorityRoute(st: Store<Complaint>, users: seq<User>, crypto: Crypto, header: Option<string>,
                         id: nat, priority: string): (r: Step<Complaint>)
    ensures AdminChain(header, crypto, users).Denied? ==> r == Step(AdminChain(header, crypto, users).reply, st)
    ensures r.store != st ==> AdminChain(header, crypto, users).Admitted? && IsPriority(priority)
  {
    match AdminChain(header, crypto, users)
    case Denied(reply) => Step(reply, st)
    case Admitted(_) => SetPriorityValidated(st, id, priority)
  }

  /** `PUT /:id/priority` as registered: `auth`, `adminAuth`, then the
      unvalidated update, so an admin can store any string. */
  function PriorityRouteAsWritten(st: Store<Complaint>, users: seq<User>, crypto: Crypto, header: Option<string>,
                                  id: nat, priority: string): (r: Step<Complaint>)
    ensures AdminChain(header, crypto, users).Denied? ==> r == Step(AdminChain(header, crypto, users).reply, st)
    ensures AdminChain(header, crypto, users).Admitted? ==>
              (r.reply == NotFoundReply <==> forall j :: 0 <= j < |st.items| ==> st.items[j].id != id)
    ensures r.store != st ==> AdminChain(header, crypto, users).Admitted?
  {
    match AdminChain(header, crypto, users)
    case Denied(reply) => Step(reply, st)
    case Admitted(_) => SetPriority(st, id, priority)
  }

  /** Through the route as registered, an admin's non-enum priority on an
      existing complaint is answered 200 and leaves the collection invalid;
      the corrected route refuses it with a 500 and changes nothing. */
  lemma AdminBreaksPriorityEnum(st: Store<Complaint>, users: seq<User>, crypto: Crypto, header: Option<string>,
                                k: nat, priority: string)
    requires Valid(st) && k < |st.items| && !IsPriority(priority)
    requires AdminChain(header, crypto, users).Admitted?
    ensures PriorityRouteAsWritten(st, users, crypto, header, st.items[k].id, priority).reply == PriorityUpdatedReply
    ensures !Valid(PriorityRouteAsWritten(st, users, crypto, header, st.items[k].id, priority).store)
    ensures PriorityRoute(st, users, crypto, header, st.items[k].id, priority) == Step(ServerErrorReply, st)
  {
    SetPriorityStoresNonEnumValue(st, k, priority);
  }

  /** The downstream effect: once the route as registered has stored a
      non-enum priority, every later status update of that complaint fails
      the whole-document validation of `save()` and is a 500 that changes
      nothing. */
  lemma NonEnumPriorityBlocksStatus(st: Store<Complaint>, users: seq<User>, crypto: Crypto, header: Option<string>,
                                    k: nat, priority: string, status: string)
    requires Valid(st) && k < |st.items| && !IsPriority(priority)
    requires AdminChain(header, crypto, users).Admitted?
    ensures var st' := PriorityRouteAsWritten(st, users, crypto, header, st.items[k].id, priority).store;
            SetStatus(st', st.items[k].id, status) == Step(ServerErrorReply, st')
  {
    var n := st.items[k].id;
    FirstIndexById(st, Id, k, n);
    var st' := Store(st.items[k := st.items[k].(priority := priority)], st.clock);
    assert PriorityRouteAsWritten(st, users, crypto, header, n, priority).store == st';
    IdsFreshReplace(st, k, st'.items[k], Id, st.clock);
    FirstIndexById(st', Id, k, n);
  }

  /** The shadowed admin status route, had it been reachable. */
  function StatusAdminRoute(st: Store<Complaint>, users: seq<User>, crypto: Crypto, header: Option<string>,
                            id: nat, status: string, assignedTo: Option<UserId>): (r: Step<Complaint>)
    ensures AdminChain(header, crypto, users).Denied? ==> r == Step(AdminChain(header, crypto, users).reply, st)
    ensures r.store != st ==> AdminChain(header, crypto, users).Admitted?
  {
    match AdminChain(header, crypto, users)
    case Denied(reply) => Step(reply, st)
    case Admitted(_) => SetStatusAdmin(st, id, status, assignedTo)
  }

  /** The delete route: `auth`, then the handler. */
  function DeleteRoute(st: Store<Complaint>, users: seq<User>, crypto: Crypto, header: Option<string>,
                       id: nat): (r: Step<Complaint>)
    requires UniqueBy(st.items, Id)
    ensures Auth(header, crypto, users).Denied? ==> r == Step(Auth(header, crypto, users).reply, st)
    ensures r.store != st ==> Auth(header, crypto, users).Admitted? && Auth(header, crypto, users).user.Some?
  {
    match Auth(header, crypto, users)
    case Denied(reply) => Step(reply, st)
    case Admitted(u) => DeleteComplaint(st, u, id)
  }

  /** Through the delete route an admin deletes any complaint, while a
      student deletes exactly the complaints filed for them. */
  lemma DeleteRouteRoleRule(st: Store<Complaint>, users: seq<User>, crypto: Crypto, header: Option<string>, k: nat)
    requires Valid(st) && k < |st.items|
    ensures AdminChain(header, crypto, users).Admitted? ==>
              DeleteRoute(st, users, crypto, header, st.items[k].id).reply == DeletedReply
    ensures (&& Auth(header, crypto, users).Admitted?
             && Auth(header, crypto, users).user.Some?
             && Auth(header, crypto, users).user.value.role == "student") ==>
              (DeleteRoute(st, users, crypto, header, st.items[k].id).reply == DeletedReply <==>
                 st.items[k].student == Auth(header, crypto, users).user.value.id)
  {
    FirstIndexById(st, Id, k, st.items[k].id);
  }

  /** One request to a reachable complaint route that can write. */
  datatype Request =
    | Create(create: CreateRequest)
    | Restate(statusId: nat, status: string)
    | Reprioritise(header: Option<string>, priorityId: nat, priority: string)
    | Delete(deleteHeader: Option<string>, deleteId: nat)

  /** The writing complaint routes, with the corrected priority route
      (`PriorityRoute`) in place of the one as registered. */
  function Handle(st: Store<Complaint>, users: seq<User>, crypto: Crypto, req: Request): (r: Step<Complaint>)
    requires Valid(st)
    ensures r.store.clock >= st.clock
    ensures req.Reprioritise? && AdminChain(req.header, crypto, users).Denied? ==>
              r == Step(AdminChain(req.header, crypto, users).reply, st)
    ensures req.Delete? && Auth(req.deleteHeader, crypto, users).Denied? ==>
              r == Step(Auth(req.deleteHeader, crypto, users).reply, st)
  {
    match req
    case Create(c) => CreateComplaint(users, st, c)
    case Restate(id, s) => SetStatus(st, id, s)
    case Reprioritise(h, id, p) => PriorityRoute(st, users, crypto, h, id, p)
    case Delete(h, id) => DeleteRoute(st, users, crypto, h, id)
  }

  /** The store after a sequence of requests; the id clock never goes back. */
  function Run(st: Store<Complaint>, users: seq<User>, crypto: Crypto, reqs: seq<Request>): (r: Store<Complaint>)
    requires Valid(st)
    ensures r.clock >= st.clock
    decreases |reqs|
  {
    if reqs == [] then st
    else
      HandlePreservesValid(st, users, crypto, reqs[0]);
      Run(Handle(st, users, crypto, reqs[0]).store, users, crypto, reqs[1..])
  }

  lemma HandlePreservesValid(st: Store<Complaint>, users: seq<User>, crypto: Crypto, req: Request)
    requires Valid(st)
    ensures Valid(Handle(st, users, crypto, req).store)
  {
    match req
    case Create(c) => CreateComplaintPreservesValid(users, st, c);
    case Restate(id, s) => SetStatusPreservesValid(st, id, s);
    case Reprioritise(h, id, p) => SetPriorityValidatedPreservesValid(st, id, p);
    case Delete(h, id) =>
      if Auth(h, crypto, users).Admitted? {
        DeleteComplaintPreservesValid(st, Auth(h, crypto, users).user, id);
      }
  }

  /** With the corrected priority update, every stored complaint keeps a
      trimmed title, a description and a priority from the enum, and ids stay unique. */
  lemma {:induction false} RunPreservesValid(st: Store<Complaint>, users: seq<User>, crypto: Crypto, reqs: seq<Request>)
    requires Valid(st)
    ensures Valid(Run(st, users, crypto, reqs))
    decreases |reqs|
  {
    if reqs != [] {
      HandlePreservesValid(st, users, crypto, reqs[0]);
      RunPreservesValid(Handle(st, users, crypto, reqs[0]).store, users, crypto, reqs[1..]);
    }
  }
}

=== FILE: complaint_schema.dfy ===
/** The Complaint schema (backend/models/Complaint.js): the category, status
    and priority enums with their defaults, the required paths and the
    trimmed title. */
module ComplaintSchema {
  import opened Base
  import opened Strings
  import opened Collection
  import opened Users

  /** The `category` enum. `Other` is the value `'other'`. */
  datatype Category = Water | Electricity | Cleaning | Maintenance | Other

  function CategoryName(c: Category): string
  {
    match c
    case Water => "water"
    case Electricity => "electricity"
    case Cleaning => "cleaning"
    case Maintenance => "maintenance"
    case Other => "other"
  }

  /** Enum validation of a `category` string. */
  function ParseCategory(s: string): (r: Option<Category>)
    ensures r.Some? ==> CategoryName(r.value) == s
    ensures r.None? <==> forall c: Category :: CategoryName(c) != s
  {
    if s == "water" then Some(Water)
    else if s == "electricity" then Some(Electricity)
    else if s == "cleaning" then Some(Cleaning)
    else if s == "maintenance" then Some(Maintenance)
    else if s == "other" then Some(Other)
    else None
  }

  lemma ParseCategoryName(c: Category)
    ensures ParseCategory(CategoryName(c)) == Some(c)
  {
  }

  /** The `status` enum; a new complaint is `Pending`. */
  datatype Status = Pending | InProgress | Resolved

  function StatusName(s: Status): string
  {
    match s
    case Pending => "pending"
    case InProgress => "in-progress"
    case Resolved => "resolved"
  }

  /** Enum validation of a `status` string. */
  function ParseStatus(s: string): (r: Option<Status>)
    ensures r.Some? ==> StatusName(r.value) == s
    ensures r.None? <==> forall t: Status :: StatusName(t) != s
  {
    if s == "pending" then Some(Pending)
    else if s == "in-progress" then Some(InProgress)
    else if s == "resolved" then Some(Resolved)
    else None
  }

  lemma ParseStatusName(s: Status)
    ensures ParseStatus(StatusName(s)) == Some(s)
  {
  }

  /** The `priority` enum. Priority is kept as the stored string because one
      write path stores it without running the enum validator. */
  predicate IsPriority(p: string)
  {
    p == "low" || p == "medium" || p == "high"
  }

  const DefaultPriority := "medium"

  /** A stored complaint. `resolvedAt` and `createdAt` are clock stamps. */
  datatype Complaint = Complaint(
    id: nat, title: string, description: string,
    category: Category, status: Status, student: UserId,
    assignedTo: Option<UserId>, priority: string,
    resolvedAt: Option<nat>, createdAt: nat)

  function Id(c: Complaint): nat
  {
    c.id
  }

  /** What the schema's validators check when a document is saved: title
      and description present, priority one of the enum values (the other
      enums are enforced by the types). `trim` is a setter, applied when a
      title is assigned, and is not checked here. */
  predicate PassesValidators(c: Complaint)
  {
    c.title != "" && c.description != "" && IsPriority(c.priority)
  }

  /** What a saved complaint satisfies: it passed the validators, and its
      title went through the trimming setter. */
  predicate Conforms(c: Complaint)
  {
    PassesValidators(c) && IsTrimmed(c.title)
  }

  /** The complaints collection invariant. */
  predicate Valid(st: Store<Complaint>)
  {
    IdsFresh(st, Id) && forall j :: 0 <= j < |st.items| ==> Conforms(st.items[j])
  }

  /** `new Complaint({ title, description, category, priority, student })`
      and `save()`: title trimmed, then required and enum checks; status
      defaults to pending, nothing assigned, not resolved. `None` is a
      ValidationError. */
  function Build(id: nat, title: string, description: string, category: string,
                 priority: string, student: UserId): (r: Option<Complaint>)
    ensures r.Some? <==>
              Trim(title) != "" && description != "" && ParseCategory(category).Some? && IsPriority(priority)
    ensures r.Some? ==> Conforms(r.value)
    ensures r.Some? ==>
              (&& r.value.id == id && r.value.createdAt == id
               && r.value.title == Trim(title) && r.value.description == description
               && CategoryName(r.value.category) == category && r.value.priority == priority
               && r.value.student == student && r.value.status == Pending
               && r.value.assignedTo.None? && r.value.resolvedAt.None?)
  {
    match ParseCategory(category)
    case None => None
    case Some(c) =>
      if Trim(title) == "" || description == "" || !IsPriority(priority) then None
      else Some(Complaint(id, Trim(title), description, c, Pending, student, None, priority, None, id))
  }

  /** `.sort({ createdAt: -1 })`. */
  predicate NewestFirst(a: Complaint, b: Complaint)
  {
    a.createdAt >= b.createdAt
  }

  lemma NewestFirstIsTotalPreorder()
    ensures TotalPreorder(NewestFirst)
  {
  }
}

=== FILE: lostfound_routes.dfy ===
/** The lost-and-found handlers (backend/routes/lostfound.js, mounted at
    /api/lostfound). Every route runs behind `auth`. Only an item's owner may
    change its status or delete it; there is no admin override. */
module LostFoundRoutes {
  import opened Base
  import opened Strings
  import opened Collection
  import opened Users
  import opened Tokens
  import opened AuthGate
  import opened LostFoundSchema

  const ReportedReply := Reply(Created, "Item reported successfully")
  const NotFoundReply := Reply(NotFound, "Item not found")
  const NotAuthorizedReply := Reply(Forbidden, "Not authorized")
  const StatusUpdatedReply := Reply(OK, "Item status updated successfully")
  const DeletedReply := Reply(OK, "Item deleted successfully")
  const ListedReply := Reply(OK, "")

  /** The `find` filter of `GET /`: always active items only; `category` and
      `itemType` constrain only when present and not `'all'`. */
  predicate Matches(i: Item, category: Option<string>, itemType: Option<string>)
  {
    && i.status == Active
    && (Constrains(category) ==> KindName(i.kind) == category.value)
    && (Constrains(itemType) ==> ItemTypeName(i.itemType) == itemType.value)
  }

  /** `GET /`: the matching items, newest first. */
  function ListItems(st: Store<Item>, category: Option<string>, itemType: Option<string>): (r: Listing<Item>)
    ensures r.reply == ListedReply
    ensures forall i :: multiset(r.items)[i] == if Matches(i, category, itemType) then multiset(st.items)[i] else 0
    ensures Sorted(r.items, NewestFirst)
  {
    NewestFirstIsTotalPreorder();
    Listing(ListedReply, SortBy(Filter(st.items, (i: Item) => Matches(i, category, itemType)), NewestFirst))
  }

  /** A resolved item is never listed, whatever the filters. */
  lemma ResolvedItemsNeverListed(st: Store<Item>, category: Option<string>, itemType: Option<string>, j: nat)
    requires j < |ListItems(st, category, itemType).items|
    ensures ListItems(st, category, itemType).items[j].status == Active
    ensures ListItems(st, category, itemType).items[j] in st.items
  {
    var r := ListItems(st, category, itemType);
    assert multiset(r.items)[r.items[j]] > 0;
  }

  /** Without filters the listing holds exactly the active items. */
  lemma UnfilteredListingIsActiveItems(st: Store<Item>, category: Option<string>, itemType: Option<string>)
    requires !Constrains(category) && !Constrains(itemType)
    ensures multiset(ListItems(st, category, itemType).items) ==
            multiset(Filter(st.items, (i: Item) => i.status == Active))
  {
    var r := ListItems(st, category, itemType);
    var a := Filter(st.items, (i: Item) => i.status == Active);
    assert forall i :: multiset(r.items)[i] == multiset(a)[i];
  }

  /** The list route: `auth`, then the listing. The handler does not read
      `req.user`, so a token whose account is gone still lists. */
  function ListRoute(st: Store<Item>, users: seq<User>, crypto: Crypto, header: Option<string>,
                     category: Option<string>, itemType: Option<string>): (r: Listing<Item>)
    ensures Auth(header, crypto, users).Denied? ==> r == Listing(Auth(header, crypto, users).reply, [])
    ensures Auth(header, crypto, users).Admitted? ==> r == ListItems(st, category, itemType)
  {
    match Auth(header, crypto, users)
    case Denied(reply) => Listing(reply, [])
    case Admitted(_) => ListItems(st, category, itemType)
  }

  datatype ReportRequest = ReportRequest(
    title: string, description: string, category: string, itemType: Option<string>,
    location: string, contact: string)

  /** `POST /` behind `auth`: the new item is owned by `req.user`; a missing
      user throws (500), as does a validation failure. */
  function ReportItem(st: Store<Item>, user: Option<Principal>, req: ReportRequest): (r: Step<Item>)
    ensures user.None? ==> r == Step(ServerErrorReply, st)
    ensures r.reply.status == Created <==>
              (&& user.Some?
               && Trim(req.title) != "" && req.description != "" && req.location != "" && req.contact != ""
               && ParseKind(req.category).Some? && ItemTypeOrDefault(req.itemType).Some?)
    ensures r.reply.status != Created ==> r.store == st
    ensures r.reply.status == Created ==>
              (&& r.reply == ReportedReply
               && |r.store.items| == |st.items| + 1 && r.store.clock == st.clock + 1
               && r.store.items[..|st.items|] == st.items
               && var i := r.store.items[|st.items|];
                  && i.id == st.clock && i.createdAt == st.clock
                  && i.user == user.value.id && i.status == Active
                  && i.title == Trim(req.title) && KindName(i.kind) == req.category
                  && i.description == req.description && i.location == req.location && i.contact == req.contact
                  && i.itemType == (if req.itemType.None? then Other else ParseItemType(req.itemType.value).value))
  {
    match user
    case None => Step(ServerErrorReply, st)
    case Some(p) =>
      match Build(st.clock, req.title, req.description, req.category, req.itemType, req.location, req.contact, p.id)
      case None => Step(ServerErrorReply, st)
      case Some(i) =>
        var items := st.items + [i];
        assert items[..|st.items|] == st.items;
        Step(ReportedReply, Store(items, st.clock + 1))
  }

  lemma ReportItemPreservesValid(st: Store<Item>, user: Option<Principal>, req: ReportRequest)
    requires Valid(st)
    ensures Valid(ReportItem(st, user, req).store)
  {
    var r := ReportItem(st, user, req);
    if r.reply.status == Created {
      var i := r.store.items[|st.items|];
      assert r.store.items == st.items + [i];
      IdsFreshAppend(st, i, Id);
    }
  }

  /** `PUT /:id/status` behind `auth`. The lookup comes first (404); then a
      missing `req.user` throws (500); anyone but the owner gets 403; a value
      outside the status enum fails validation (500). Only `status` changes.
      Ids are unique, as `_id` is in every MongoDB collection. */
  function SetItemStatus(st: Store<Item>, user: Option<Principal>, id: nat, status: string): (r: Step<Item>)
    requires UniqueBy(st.items, Id)
    ensures r.reply == NotFoundReply <==> forall j :: 0 <= j < |st.items| ==> st.items[j].id != id
    ensures r.reply == NotAuthorizedReply <==>
              (exists j :: 0 <= j < |st.items| && st.items[j].id == id && user.Some? && st.items[j].user != user.value.id)
    ensures r.reply.status == OK <==>
              (&& (exists j :: 0 <= j < |st.items| && st.items[j].id == id && user.Some? && st.items[j].user == user.value.id)
               && ParseItemStatus(status).Some?)
    ensures r.reply.status != OK ==> r.store == st
    ensures r.reply.status == OK ==>
              (&& r.reply == StatusUpdatedReply && r.store.clock == st.clock
               && exists k :: 0 <= k < |st.items| && st.items[k].id == id
                    && r.store.items == st.items[k := st.items[k].(status := ParseItemStatus(status).value)])
  {
    match FirstIndex(st.items, (i: Item) => i.id == id)
    case None => Step(NotFoundReply, st)
    case Some(k) =>
      match user
      case None => Step(ServerErrorReply, st)
      case Some(p) =>
        if st.items[k].user != p.id then Step(NotAuthorizedReply, st)
        else
          match ParseItemStatus(status)
          case None => Step(ServerErrorReply, st)
          case Some(s) => Step(StatusUpdatedReply, Store(st.items[k := st.items[k].(status := s)], st.clock))
  }

  lemma SetItemStatusPreservesValid(st: Store<Item>, user: Option<Principal>, id: nat, status: string)
    requires Valid(st)
    ensures Valid(SetItemStatus(st, user, id, status).store)
  {
    match FirstIndex(st.items, (i: Item) => i.id == id)
    case None =>
    case Some(k) =>
      match ParseItemStatus(status)
      case None =>
      case Some(s) => IdsFreshReplace(st, k, st.items[k].(status := s), Id, st.clock);
  }

  /** `DELETE /:id` behind `auth`: 404, then 500 for a missing user, then 403
      for anyone but the owner, whatever their role. */
  function DeleteItem(st: Store<Item>, user: Option<Principal>, id: nat): (r: Step<Item>)
    requires UniqueBy(st.items, Id)
    ensures r.reply == NotFoundReply <==> forall j :: 0 <= j < |st.items| ==> st.items[j].id != id
    ensures r.reply == NotAuthorizedReply <==>
              (exists j :: 0 <= j < |st.items| && st.items[j].id == id && user.Some? && st.items[j].user != user.value.id)
    ensures r.reply.status == OK <==>
              (exists j :: 0 <= j < |st.items| && st.items[j].id == id && user.Some? && st.items[j].user == user.value.id)
    ensures r.reply != DeletedReply ==> r.store == st
    ensures r.reply == DeletedReply ==>
              (&& r.store.clock == st.clock
               && exists k :: 0 <= k < |st.items| && st.items[k].id == id && r.store.items == RemoveAt(st.items, k))
  {
    match FirstIndex(st.items, (i: Item) => i.id == id)
    case None => Step(NotFoundReply, st)
    case Some(k) =>
      match user
      case None => Step(ServerErrorReply, st)
      case Some(p) =>
        if st.items[k].user != p.id then Step(NotAuthorizedReply, st)
        else Step(DeletedReply, Store(RemoveAt(st.items, k), st.clock))
  }

  lemma DeleteItemPreservesValid(st: Store<Item>, user: Option<Principal>, id: nat)
    requires Valid(st)
    ensures Valid(DeleteItem(st, user, id).store)
  {
    match FirstIndex(st.items, (i: Item) => i.id == id)
    case None =>
    case Some(k) => IdsFreshRemove(st, k, Id);
  }

  /** No admin override: an admin who does not own an item can neither
      change its status nor delete it. */
  lemma OnlyOwnerWrites(st: Store<Item>, p: Principal, k: nat, status: string)
    requires Valid(st) && k < |st.items| && st.items[k].user != p.id
    ensures SetItemStatus(st, Some(p), st.items[k].id, status) == Step(NotAuthorizedReply, st)
    ensures DeleteItem(st, Some(p), st.items[k].id) == Step(NotAuthorizedReply, st)
  {
    FirstIndexById(st, Id, k, st.items[k].id);
  }

  /** The routes that write, each `auth` then the handler. */
  datatype Request =
    | Report(reportHeader: Option<string>, report: ReportRequest)
    | Restate(statusHeader: Option<string>, statusId: nat, status: string)
    | Delete(deleteHeader: Option<string>, deleteId: nat)

  /** The `Authorization` header a request carries. */
  function HeaderOf(req: Request): Option<string>
  {
    match req
    case Report(h, _) => h
    case Restate(h, _, _) => h
    case Delete(h, _) => h
  }

  /** `auth` in front of every route: a refused request changes nothing. */
  function Handle(st: Store<Item>, users: seq<User>, crypto: Crypto, req: Request): (r: Step<Item>)
    requires Valid(st)
    ensures Auth(HeaderOf(req), crypto, users).Denied? ==> r == Step(Auth(HeaderOf(req), crypto, users).reply, st)
    ensures r.store != st ==> Auth(HeaderOf(req), crypto, users).Admitted? && Auth(HeaderOf(req), crypto, users).user.Some?
    ensures r.store.clock >= st.clock
  {
    match Auth(HeaderOf(req), crypto, users)
    case Denied(reply) => Step(reply, st)
    case Admitted(u) =>
      match req
      case Report(_, rep) => ReportItem(st, u, rep)
      case Restate(_, id, s) => SetItemStatus(st, u, id, s)
      case Delete(_, id) => DeleteItem(st, u, id)
  }

  lemma HandlePreservesValid(st: Store<Item>, users: seq<User>, crypto: Crypto, req: Request)
    requires Valid(st)
    ensures Valid(Handle(st, users, crypto, req).store)
  {
    var a := Auth(HeaderOf(req), crypto, users);
    if a.Admitted? {
      match req
      case Report(_, rep) => ReportItemPreservesValid(st, a.user, rep);
      case Restate(_, id, s) => SetItemStatusPreservesValid(st, a.user, id, s);
      case Delete(_, id) => DeleteItemPreservesValid(st, a.user, id);
    }
  }

  /** The store after a sequence of requests; the id clock never goes back. */
  function Run(st: Store<Item>, users: seq<User>, crypto: Crypto, reqs: seq<Request>): (r: Store<Item>)
    requires Valid(st)
    ensures r.clock >= st.clock
    decreases |reqs|
  {
    if reqs == [] then st
    else
      HandlePreservesValid(st, users, crypto, reqs[0]);
      Run(Handle(st, users, crypto, reqs[0]).store, users, crypto, reqs[1..])
  }

  /** Every stored item keeps its required fields and trimmed title, and ids stay unique. */
  lemma {:induction false} RunPreservesValid(st: Store<Item>, users: seq<User>, crypto: Crypto, reqs: seq<Request>)
    requires Valid(st)
    ensures Valid(Run(st, users, crypto, reqs))
    decreases |reqs|
  {
    if reqs != [] {
      HandlePreservesValid(st, users, crypto, reqs[0]);
      RunPreservesValid(Handle(st, users, crypto, reqs[0]).store, users, crypto, reqs[1..]);
    }
  }
}

=== FILE: lostfound_schema.dfy ===
/** The LostFound schema (backend/models/LostFound.js): the category, item
    type and status enums with their defaults, the required paths and the
    trimmed title. */
module LostFoundSchema {
  import opened Base
  import opened Strings
  import opened Collection
  import opened Users

  /** The `category` enum: whether the item was lost or found. */
  datatype Kind = Lost | Found

  function KindName(k: Kind): string
  {
    match k
    case Lost => "lost"
    case Found => "found"
  }

  function ParseKind(s: string): (r: Option<Kind>)
    ensures r.Some? ==> KindName(r.value) == s
    ensures r.None? <==> forall k: Kind :: KindName(k) != s
  {
    if s == "lost" then Some(Lost)
    else if s == "found" then Some(Found)
    else None
  }

  lemma ParseKindName(k: Kind)
    ensures ParseKind(KindName(k)) == Some(k)
  {
  }

  /** The `itemType` enum; `Other` (`'other'`) is the default. */
  datatype ItemType = Book | Bottle | Wallet | Phone | Keys | Other

  function ItemTypeName(t: ItemType): string
  {
    match t
    case Book => "book"
    case Bottle => "bottle"
    case Wallet => "wallet"
    case Phone => "phone"
    case Keys => "keys"
    case Other => "other"
  }

  function ParseItemType(s: string): (r: Option<ItemType>)
    ensures r.Some? ==> ItemTypeName(r.value) == s
    ensures r.None? <==> forall t: ItemType :: ItemTypeName(t) != s
  {
    if s == "book" then Some(Book)
    else if s == "bottle" then Some(Bottle)
    else if s == "wallet" then Some(Wallet)
    else if s == "phone" then Some(Phone)
    else if s == "keys" then Some(Keys)
    else if s == "other" then Some(Other)
    else None
  }

  lemma ParseItemTypeName(t: ItemType)
    ensures ParseItemType(ItemTypeName(t)) == Some(t)
  {
  }

  /** The `itemType` a new document gets: the default `'other'` when the
      field is absent; a given value must be an enum value (an empty string
      is not absent, and fails). */
  function ItemTypeOrDefault(o: Option<string>): (r: Option<ItemType>)
    ensures o.None? ==> r == Some(Other)
    ensures o.Some? ==> r == ParseItemType(o.value)
  {
    match o
    case None => Some(Other)
    case Some(s) => ParseItemType(s)
  }

  /** The `status` enum; a new item is `Active`. */
  datatype ItemStatus = Active | Resolved

  function ItemStatusName(s: ItemStatus): string
  {
    match s
    case Active => "active"
    case Resolved => "resolved"
  }

  function ParseItemStatus(s: string): (r: Option<ItemStatus>)
    ensures r.Some? ==> ItemStatusName(r.value) == s
    ensures r.None? <==> forall t: ItemStatus :: ItemStatusName(t) != s
  {
    if s == "active" then Some(Active)
    else if s == "resolved" then Some(Resolved)
    else None
  }

  lemma ParseItemStatusName(s: ItemStatus)
    ensures ParseItemStatus(ItemStatusName(s)) == Some(s)
  {
  }

  /** A stored lost-or-found posting, owned by `user`. */
  datatype Item = Item(
    id: nat, title: string, description: string, kind: Kind, itemType: ItemType,
    location: string, contact: string, user: UserId, status: ItemStatus, createdAt: nat)

  function Id(i: Item): nat
  {
    i.id
  }

  /** What validation guarantees of a saved item: the required strings are
      non-empty and the title is stored trimmed. */
  predicate Conforms(i: Item)
  {
    i.title != "" && IsTrimmed(i.title) && i.description != "" && i.location != "" && i.contact != ""
  }

  /** The lost-and-found collection invariant. */
  predicate Valid(st: Store<Item>)
  {
    IdsFresh(st, Id) && forall j :: 0 <= j < |st.items| ==> Conforms(st.items[j])
  }

  /** `new LostFound({ ... })` and `save()`. `None` is a ValidationError. */
  function Build(id: nat, title: string, description: string, category: string, itemType: Option<string>,
                 location: string, contact: string, user: UserId): (r: Option<Item>)
    ensures r.Some? <==>
              (&& Trim(title) != "" && description != "" && location != "" && contact != ""
               && ParseKind(category).Some? && ItemTypeOrDefault(itemType).Some?)
    ensures r.Some? ==> Conforms(r.value)
    ensures r.Some? ==>
              (&& r.value.id == id && r.value.createdAt == id && r.value.user == user
               && r.value.title == Trim(title) && r.value.description == description
               && KindName(r.value.kind) == category
               && r.value.itemType == ItemTypeOrDefault(itemType).value
               && r.value.location == location && r.value.contact == contact
               && r.value.status == Active)
  {
    match (ParseKind(category), ItemTypeOrDefault(itemType))
    case (Some(k), Some(t)) =>
      if Trim(title) == "" || description == "" || location == "" || contact == "" then None
      else Some(Item(id, Trim(title), description, k, t, location, contact, user, Active, id))
    case _ => None
  }

  /** `.sort({ createdAt: -1 })`. */
  predicate NewestFirst(a: Item, b: Item)
  {
    a.createdAt >= b.createdAt
  }

  lemma NewestFirstIsTotalPreorder()
    ensures TotalPreorder(NewestFirst)
  {
  }
}

=== FILE: routing.dfy ===
/** Which handler an Express router runs: the routes in registration order,
    and the first whose verb and path pattern match the request wins. A
    handler registered after an identical route is never reached. */
module Routing {
  import opened Base
  import opened Collection

  datatype Verb = Get | Post | Put | Delete

  /** One segment of a route path: a literal word or a `:name` parameter. */
  datatype Segment = Lit(word: string) | Param

  datatype Route<H> = Route(verb: Verb, pattern: seq<Segment>, handler: H)

  /** A `:name` parameter takes any non-empty segment; a literal only itself. */
  predicate SegmentMatches(seg: Segment, s: string)
  {
    match seg
    case Lit(w) => w == s
    case Param => s != ""
  }

  predicate RouteMatches<H>(r: Route<H>, verb: Verb, path: seq<string>)
  {
    r.verb == verb && |r.pattern| == |path| && forall i :: 0 <= i < |path| ==> SegmentMatches(r.pattern[i], path[i])
  }

  /** The index of the route that handles the request, if any. */
  function Dispatch<H>(table: seq<Route<H>>, verb: Verb, path: seq<string>): (r: Option<nat>)
    ensures r.Some? ==> r.value < |table| && RouteMatches(table[r.value], verb, path)
    ensures r.Some? ==> forall j :: 0 <= j < r.value ==> !RouteMatches(table[j], verb, path)
    ensures r.None? <==> forall j :: 0 <= j < |table| ==> !RouteMatches(table[j], verb, path)
  {
    FirstIndex(table, (r: Route<H>) => RouteMatches(r, verb, path))
  }

  /** A route registered after one with the same verb and pattern never runs. */
  lemma ShadowedNeverDispatched<H>(table: seq<Route<H>>, i: nat, j: nat, verb: Verb, path: seq<string>)
    requires j < i < |table|
    requires table[j].verb == table[i].verb && table[j].pattern == table[i].pattern
    ensures Dispatch(table, verb, path) != Some(i)
  {
    if Dispatch(table, verb, path) == Some(i) {
      assert RouteMatches(table[j], verb, path);
    }
  }

  /** A matching route with no matching route before it is the one dispatched. */
  lemma FirstMatchDispatched<H>(table: seq<Route<H>>, k: nat, verb: Verb, path: seq<string>)
    requires k < |table| && RouteMatches(table[k], verb, path)
    requires forall j :: 0 <= j < k ==> !RouteMatches(table[j], verb, path)
    ensures Dispatch(table, verb, path) == Some(k)
  {
  }

  /** What each pattern shape of the two routers matches. */
  lemma MatchesEmpty<H>(r: Route<H>, verb: Verb, path: seq<string>)
    requires r.pattern == []
    ensures RouteMatches(r, verb, path) <==> verb == r.verb && path == []
  {
  }

  lemma MatchesParam<H>(r: Route<H>, verb: Verb, path: seq<string>)
    requires r.pattern == [Param]
    ensures RouteMatches(r, verb, path) <==> verb == r.verb && |path| == 1 && path[0] != ""
  {
    if RouteMatches(r, verb, path) { assert SegmentMatches(r.pattern[0], path[0]); }
  }

  lemma MatchesLit<H>(r: Route<H>, w: string, verb: Verb, path: seq<string>)
    requires r.pattern == [Lit(w)]
    ensures RouteMatches(r, verb, path) <==> verb == r.verb && path == [w]
  {
    if RouteMatches(r, verb, path) { assert SegmentMatches(r.pattern[0], path[0]); }
  }

  lemma MatchesParamLit<H>(r: Route<H>, w: string, verb: Verb, path: seq<string>)
    requires r.pattern == [Param, Lit(w)]
    ensures RouteMatches(r, verb, path) <==> verb == r.verb && |path| == 2 && path[0] != "" && path[1] == w
  {
    if RouteMatches(r, verb, path) {
      assert SegmentMatches(r.pattern[0], path[0]) && SegmentMatches(r.pattern[1], path[1]);
    }
  }

  lemma MatchesLitParamParam<H>(r: Route<H>, w: string, verb: Verb, path: seq<string>)
    requires r.pattern == [Lit(w), Param, Param]
    ensures RouteMatches(r, verb, path) <==>
              verb == r.verb && |path| == 3 && path[0] == w && path[1] != "" && path[2] != ""
  {
    if RouteMatches(r, verb, path) {
      assert SegmentMatches(r.pattern[0], path[0]) && SegmentMatches(r.pattern[1], path[1])
             && SegmentMatches(r.pattern[2], path[2]);
    }
  }

  /** The handlers of the complaints router. */
  datatype ComplaintHandler = ListComplaints | CreateComplaint | SetStatus | SetStatusAdmin
                            | SetPriority | DeleteComplaint | Stats

  /** backend/routes/complaints.js in registration order. */
  const ComplaintsTable: seq<Route<ComplaintHandler>> := [
    Route(Get, [], ListComplaints),
    Route(Post, [], CreateComplaint),
    Route(Put, [Param, Lit("status")], SetStatus),
    Route(Put, [Param, Lit("status")], SetStatusAdmin),
    Route(Put, [Param, Lit("priority")], SetPriority),
    Route(Delete, [Param], DeleteComplaint),
    Route(Get, [Lit("stats")], Stats)
  ]

  /** The position of the complaints route a request reaches, read off the
      request's shape. */
  function ComplaintIndex(verb: Verb, path: seq<string>): Option<nat>
  {
    if verb == Get && path == [] then Some(0)
    else if verb == Post && path == [] then Some(1)
    else if verb == Put && |path| == 2 && path[0] != "" && path[1] == "status" then Some(2)
    else if verb == Put && |path| == 2 && path[0] != "" && path[1] == "priority" then Some(4)
    else if verb == Delete && |path| == 1 && path[0] != "" then Some(5)
    else if verb == Get && path == ["stats"] then Some(6)
    else None
  }

  /** Dispatching over the complaints table is `ComplaintIndex`, one verb at a time. */
  lemma ComplaintDispatchIsIndex(verb: Verb, path: seq<string>)
    ensures Dispatch(ComplaintsTable, verb, path) == ComplaintIndex(verb, path)
  {
    match verb
    case Get => ComplaintDispatchGet(path);
    case Post => ComplaintDispatchPost(path);
    case Put => ComplaintDispatchPut(path);
    case Delete => ComplaintDispatchDelete(path);
  }

  /** Which positions of the complaints table carry each verb. */
  lemma ComplaintVerbs()
    ensures forall j :: 0 <= j < |ComplaintsTable| && ComplaintsTable[j].verb == Get ==> j == 0 || j == 6
    ensures forall j :: 0 <= j < |ComplaintsTable| && ComplaintsTable[j].verb == Post ==> j == 1
    ensures forall j :: 0 <= j < |ComplaintsTable| && ComplaintsTable[j].verb == Put ==> 2 <= j <= 4
    ensures forall j :: 0 <= j < |ComplaintsTable| && ComplaintsTable[j].verb == Delete ==> j == 5
  {
  }

  lemma ComplaintDispatchGet(path: seq<string>)
    ensures Dispatch(ComplaintsTable, Get, path) == ComplaintIndex(Get, path)
  {
    var t := ComplaintsTable;
    ComplaintVerbs();
    MatchesEmpty(t[0], Get, path);
    MatchesLit(t[6], "stats", Get, path);
    if path == [] {
      FirstMatchDispatched(t, 0, Get, path);
    } else if path == ["stats"] {
      FirstMatchDispatched(t, 6, Get, path);
    } else {
      assert forall j :: 0 <= j < |t| ==> !RouteMatches(t[j], Get, path);
    }
  }

  lemma ComplaintDispatchPost(path: seq<string>)
    ensures Dispatch(ComplaintsTable, Post, path) == ComplaintIndex(Post, path)
  {
    var t := ComplaintsTable;
    ComplaintVerbs();
    MatchesEmpty(t[1], Post, path);
    if path == [] {
      FirstMatchDispatched(t, 1, Post, path);
    } else {
      assert forall j :: 0 <= j < |t| ==> !RouteMatches(t[j], Post, path);
    }
  }

  lemma ComplaintDispatchPut(path: seq<string>)
    ensures Dispatch(ComplaintsTable, Put, path) == ComplaintIndex(Put, path)
  {
    var t := ComplaintsTable;
    ComplaintVerbs();
    MatchesParamLit(t[2], "status", Put, path);
    MatchesParamLit(t[3], "status", Put, path);
    MatchesParamLit(t[4], "priority", Put, path);
    if |path| == 2 && path[0] != "" && path[1] == "status" {
      FirstMatchDispatched(t, 2, Put, path);
    } else if |path| == 2 && path[0] != "" && path[1] == "priority" {
      FirstMatchDispatched(t, 4, Put, path);
    } else {
      assert forall j :: 0 <= j < |t| ==> !RouteMatches(t[j], Put, path);
    }
  }

  lemma ComplaintDispatchDelete(path: seq<string>)
    ensures Dispatch(ComplaintsTable, Delete, path) == ComplaintIndex(Delete, path)
  {
    var t := ComplaintsTable;
    ComplaintVerbs();
    MatchesParam(t[5], Delete, path);
    if |path| == 1 && path[0] != "" {
      FirstMatchDispatched(t, 5, Delete, path);
    } else {
      assert forall j :: 0 <= j < |t| ==> !RouteMatches(t[j], Delete, path);
    }
  }

  /** The handler that runs for a complaints request, if any: each live
      handler exactly on its request shape, the shadowed admin status
      handler never, and nothing for any other request. */
  function ComplaintRoute(verb: Verb, path: seq<string>): (r: Option<ComplaintHandler>)
    ensures r == Some(ListComplaints) <==> verb == Get && path == []
    ensures r == Some(CreateComplaint) <==> verb == Post && path == []
    ensures r == Some(SetStatus) <==> verb == Put && |path| == 2 && path[0] != "" && path[1] == "status"
    ensures r != Some(SetStatusAdmin)
    ensures r == Some(SetPriority) <==> verb == Put && |path| == 2 && path[0] != "" && path[1] == "priority"
    ensures r == Some(DeleteComplaint) <==> verb == Delete && |path| == 1 && path[0] != ""
    ensures r == Some(Stats) <==> verb == Get && path == ["stats"]
  {
    ComplaintDispatchIsIndex(verb, path);
    match Dispatch(ComplaintsTable, verb, path)
    case None => None
    case Some(k) => Some(ComplaintsTable[k].handler)
  }

  /** `PUT /:id/status` always reaches the public handler. */
  lemma ComplaintStatusIsPublic(id: string)
    requires id != ""
    ensures ComplaintRoute(Put, [id, "status"]) == Some(SetStatus)
  {
  }

  /** The admin status handler, with its `assignedTo` update, never runs. */
  lemma ComplaintStatusAdminIsDead(verb: Verb, path: seq<string>)
    ensures ComplaintRoute(verb, path) != Some(SetStatusAdmin)
  {
  }

  /** `GET /stats` reaches the statistics: no earlier `GET` route has one segment. */
  lemma ComplaintStatsReachable()
    ensures ComplaintRoute(Get, ["stats"]) == Some(Stats)
  {
  }

  /** The handlers of the timetable router. */
  datatype TimetableHandler = ListClasses | AddClass | DeleteClassById | UpdateClass
                            | DeleteOwnedClass | DeleteClassBySlot

  /** backend/routes/timetable.js in registration order. */
  const TimetableTable: seq<Route<TimetableHandler>> := [
    Route(Get, [], ListClasses),
    Route(Post, [], AddClass),
    Route(Delete, [Param], DeleteClassById),
    Route(Put, [Param], UpdateClass),
    Route(Delete, [Param], DeleteOwnedClass),
    Route(Delete, [Lit("slot"), Param, Param], DeleteClassBySlot)
  ]

  /** The position of the timetable route a request reaches, read off the
      request's shape. */
  function TimetableIndex(verb: Verb, path: seq<string>): Option<nat>
  {
    if verb == Get && path == [] then Some(0)
    else if verb == Post && path == [] then Some(1)
    else if verb == Delete && |path| == 1 && path[0] != "" then Some(2)
    else if verb == Put && |path| == 1 && path[0] != "" then Some(3)
    else if verb == Delete && |path| == 3 && path[0] == "slot" && path[1] != "" && path[2] != "" then Some(5)
    else None
  }

  /** Dispatching over the timetable table is `TimetableIndex`, one verb at a time. */
  lemma TimetableDispatchIsIndex(verb: Verb, path: seq<string>)
    ensures Dispatch(TimetableTable, verb, path) == TimetableIndex(verb, path)
  {
    match verb
    case Get => TimetableDispatchGet(path);
    case Post => TimetableDispatchPost(path);
    case Put => TimetableDispatchPut(path);
    case Delete => TimetableDispatchDelete(path);
  }

  /** Which positions of the timetable table carry each verb. */
  lemma TimetableVerbs()
    ensures forall j :: 0 <= j < |TimetableTable| && TimetableTable[j].verb == Get ==> j == 0
    ensures forall j :: 0 <= j < |TimetableTable| && TimetableTable[j].verb == Post ==> j == 1
    ensures forall j :: 0 <= j < |TimetableTable| && TimetableTable[j].verb == Put ==> j == 3
    ensures forall j :: 0 <= j < |TimetableTable| && TimetableTable[j].verb == Delete ==> j == 2 || j == 4 || j == 5
  {
  }

  lemma TimetableDispatchGet(path: seq<string>)
    ensures Dispatch(TimetableTable, Get, path) == TimetableIndex(Get, path)
  {
    var t := TimetableTable;
    TimetableVerbs();
    MatchesEmpty(t[0], Get, path);
    if path == [] {
      FirstMatchDispatched(t, 0, Get, path);
    } else {
      assert forall j :: 0 <= j < |t| ==> !RouteMatches(t[j], Get, path);
    }
  }

  lemma TimetableDispatchPost(path: seq<string>)
    ensures Dispatch(TimetableTable, Post, path) == TimetableIndex(Post, path)
  {
    var t := TimetableTable;
    TimetableVerbs();
    MatchesEmpty(t[1], Post, path);
    if path == [] {
      FirstMatchDispatched(t, 1, Post, path);
    } else {
      assert forall j :: 0 <= j < |t| ==> !RouteMatches(t[j], Post, path);
    }
  }

  lemma TimetableDispatchPut(path: seq<string>)
    ensures Dispatch(TimetableTable, Put, path) == TimetableIndex(Put, path)
  {
    var t := TimetableTable;
    TimetableVerbs();
    MatchesParam(t[3], Put, path);
    if |path| == 1 && path[0] != "" {
      FirstMatchDispatched(t, 3, Put, path);
    } else {
      assert forall j :: 0 <= j < |t| ==> !RouteMatches(t[j], Put, path);
    }
  }

  lemma TimetableDispatchDelete(path: seq<string>)
    ensures Dispatch(TimetableTable, Delete, path) == TimetableIndex(Delete, path)
  {
    var t := TimetableTable;
    TimetableVerbs();
    MatchesParam(t[2], Delete, path);
    MatchesParam(t[4], Delete, path);
    MatchesLitParamParam(t[5], "slot", Delete, path);
    if |path| == 1 && path[0] != "" {
      FirstMatchDispatched(t, 2, Delete, path);
    } else if |path| == 3 && path[0] == "slot" && path[1] != "" && path[2] != "" {
      FirstMatchDispatched(t, 5, Delete, path);
    } else {
      assert forall j :: 0 <= j < |t| ==> !RouteMatches(t[j], Delete, path);
    }
  }

  /** The handler that runs for a timetable request, if any: each live
      handler exactly on its request shape, the shadowed owner-scoped delete
      never, and nothing for any other request. */
  function TimetableRoute(verb: Verb, path: seq<string>): (r: Option<TimetableHandler>)
    ensures r == Some(ListClasses) <==> verb == Get && path == []
    ensures r == Some(AddClass) <==> verb == Post && path == []
    ensures r == Some(DeleteClassById) <==> verb == Delete && |path| == 1 && path[0] != ""
    ensures r == Some(UpdateClass) <==> verb == Put && |path| == 1 && path[0] != ""
    ensures r != Some(DeleteOwnedClass)
    ensures r == Some(DeleteClassBySlot) <==>
              verb == Delete && |path| == 3 && path[0] == "slot" && path[1] != "" && path[2] != ""
  {
    TimetableDispatchIsIndex(verb, path);
    match Dispatch(TimetableTable, verb, path)
    case None => None
    case Some(k) => Some(TimetableTable[k].handler)
  }

  /** `DELETE /:id` always reaches the public delete by id. */
  lemma TimetableDeleteIsPublic(id: string)
    requires id != ""
    ensures TimetableRoute(Delete, [id]) == Some(DeleteClassById)
  {
  }

  /** The owner-scoped delete, registered on the same path, never runs. */
  lemma TimetableOwnedDeleteIsDead(verb: Verb, path: seq<string>)
    ensures TimetableRoute(verb, path) != Some(DeleteOwnedClass)
  {
  }

  /** `DELETE /slot/:day/:time` has three segments, so it is not taken for an
      id and reaches the delete by slot. */
  lemma TimetableSlotDeleteReachable(day: string, time: string)
    requires day != "" && time != ""
    ensures TimetableRoute(Delete, ["slot", day, time]) == Some(DeleteClassBySlot)
  {
  }
}

=== FILE: strings.dfy ===
/** The JavaScript string operations the handlers rely on: `trim` (applied by
    Mongoose `trim: true` schema paths), `replace` with a string pattern,
    `split` on a one-character separator, and the code-point order MongoDB
    uses when it sorts string fields. */
module Strings {
  import opened Base

  /** ECMAScript WhiteSpace and LineTerminator code points, the set `trim` strips. */
  predicate IsSpace(c: char)
  {
    var n := c as int;
    n == 0x09 || n == 0x0A || n == 0x0B || n == 0x0C || n == 0x0D || n == 0x20
    || n == 0xA0 || n == 0x1680 || (0x2000 <= n <= 0x200A) || n == 0x2028 || n == 0x2029
    || n == 0x202F || n == 0x205F || n == 0x3000 || n == 0xFEFF
  }

  /** A string with no white space at either end: what `trim` produces. */
  predicate IsTrimmed(s: string)
  {
    s == [] || (!IsSpace(s[0]) && !IsSpace(s[|s| - 1]))
  }

  /** Drops the leading characters that satisfy `p`; the result is a suffix of `s`. */
  function DropWhile(s: string, p: char -> bool): (r: string)
    ensures |r| <= |s| && r == s[|s| - |r|..]
    ensures forall i :: 0 <= i < |s| - |r| ==> p(s[i])
    ensures r == [] || !p(r[0])
    decreases |s|
  {
    if s != [] && p(s[0]) then DropWhile(s[1..], p) else s
  }

  /** Drops the trailing characters that satisfy `p`; the result is a prefix of `s`. */
  function DropLastWhile(s: string, p: char -> bool): (r: string)
    ensures |r| <= |s| && r == s[..|r|]
    ensures forall i :: |r| <= i < |s| ==> p(s[i])
    ensures r == [] || !p(r[|r| - 1])
    decreases |s|
  {
    if s != [] && p(s[|s| - 1]) then DropLastWhile(s[..|s| - 1], p) else s
  }

  /** A prefix `r` of a suffix `t` of `s` is the slice of `s` it covers, and
      the characters of `t` after `r` are the characters of `s` after it. */
  lemma PrefixOfSuffixIsSlice(s: string, t: string, r: string, p: char -> bool)
    requires |t| <= |s| && t == s[|s| - |t|..]
    requires |r| <= |t| && r == t[..|r|]
    requires forall i :: |r| <= i < |t| ==> p(t[i])
    ensures r == s[|s| - |t|..|s| - |t| + |r|]
    ensures forall i :: |s| - |t| + |r| <= i < |s| ==> p(s[i])
  {
    var a := |s| - |t|;
    forall i | a + |r| <= i < |s|
      ensures p(s[i])
    {
      assert s[i] == t[i - a];
    }
  }

  /** `String.prototype.trim`: the input with its leading and trailing white
      space cut off, and nothing else changed. */
  function Trim(s: string): (r: string)
    ensures IsTrimmed(r)
    ensures |r| <= |s|
    ensures exists a, b :: 0 <= a <= b <= |s| && r == s[a..b]
              && (forall i :: 0 <= i < a ==> IsSpace(s[i]))
              && (forall i :: b <= i < |s| ==> IsSpace(s[i]))
  {
    var t := DropWhile(s, IsSpace);
    var r := DropLastWhile(t, IsSpace);
    assert r != [] ==> r[0] == t[0];
    PrefixOfSuffixIsSlice(s, t, r, IsSpace);
    r
  }

  /** Trimming a string that is already trimmed changes nothing, so `trim` is idempotent. */
  lemma TrimOfTrimmed(s: string)
    requires IsTrimmed(s)
    ensures Trim(s) == s
  {
  }

  lemma TrimIdempotent(s: string)
    ensures Trim(Trim(s)) == Trim(s)
  {
    TrimOfTrimmed(Trim(s));
  }

  /** `trim` yields the empty string exactly when every character is white space
      (which is when a `required` trimmed path fails validation). */
  lemma TrimEmptyIff(s: string)
    ensures Trim(s) == "" <==> forall i :: 0 <= i < |s| ==> IsSpace(s[i])
  {
  }

  /** `pat` occurs in `s` at position `k`. */
  predicate OccursAt(s: string, pat: string, k: nat)
  {
    k + |pat| <= |s| && s[k..k + |pat|] == pat
  }

  /** `s.indexOf(pat, from)`: the first occurrence at or after `from`. */
  function IndexFrom(s: string, pat: string, from: nat): (r: Option<nat>)
    requires from <= |s|
    ensures r.Some? ==> from <= r.value && OccursAt(s, pat, r.value)
    ensures r.Some? ==> forall k :: from <= k < r.value ==> !OccursAt(s, pat, k)
    ensures r.None? ==> forall k :: from <= k <= |s| ==> !OccursAt(s, pat, k)
    decreases |s| - from
  {
    if OccursAt(s, pat, from) then Some(from)
    else if from == |s| then None
    else IndexFrom(s, pat, from + 1)
  }

  /** `s.replace(pat, '')`: a string pattern replaces only its FIRST occurrence. */
  function StripFirst(s: string, pat: string): (r: string)
    ensures (forall k :: 0 <= k <= |s| ==> !OccursAt(s, pat, k)) ==> r == s
    ensures forall k :: 0 <= k <= |s| && OccursAt(s, pat, k) && (forall j :: 0 <= j < k ==> !OccursAt(s, pat, j))
              ==> r == s[..k] + s[k + |pat|..]
  {
    match IndexFrom(s, pat, 0)
    case None => s
    case Some(k) => s[..k] + s[k + |pat|..]
  }

  /** Stripping a pattern from a string that starts with it gives back the rest. */
  lemma StripFirstOfPrefixed(pat: string, t: string)
    ensures StripFirst(pat + t, pat) == t
  {
    var s := pat + t;
    assert s[0..|pat|] == pat;
    assert OccursAt(s, pat, 0);
    assert s[|pat|..] == t;
  }

  /** The fields of `s.split(sep)` glued back with `sep`. */
  function Join(fs: seq<string>, sep: char): string
    requires |fs| >= 1
    decreases |fs|
  {
    if |fs| == 1 then fs[0] else fs[0] + [sep] + Join(fs[1..], sep)
  }

  /** `s.split(sep)` for a one-character separator: at least one field, no field
      contains the separator, and joining the fields gives back `s`. */
  function Split(s: string, sep: char): (r: seq<string>)
    ensures |r| >= 1
    ensures forall i :: 0 <= i < |r| ==> sep !in r[i]
    ensures Join(r, sep) == s
    decreases |s|
  {
    if s == [] then [""]
    else
      var rest := Split(s[1..], sep);
      if s[0] == sep then
        assert s == [sep] + s[1..];
        [""] + rest
      else
        var r := [[s[0]] + rest[0]] + rest[1..];
        assert r[1..] == rest[1..];
        assert s == [s[0]] + s[1..];
        r
  }

  lemma {:induction false} SplitWithoutSep(a: string, sep: char)
    requires sep !in a
    ensures Split(a, sep) == [a]
    decreases |a|
  {
    if a != [] {
      SplitWithoutSep(a[1..], sep);
      assert [a[0]] + a[1..] == a;
    }
  }

  lemma {:induction false} SplitCons(a: string, b: string, sep: char)
    requires sep !in a
    ensures Split(a + [sep] + b, sep) == [a] + Split(b, sep)
    decreases |a|
  {
    var s := a + [sep] + b;
    if a == [] {
      assert s[1..] == b;
    } else {
      assert s[1..] == a[1..] + [sep] + b;
      SplitCons(a[1..], b, sep);
      assert [a[0]] + a[1..] == a;
    }
  }

  /** Splitting undoes joining when no field contains the separator. */
  lemma {:induction false} SplitJoin(fs: seq<string>, sep: char)
    requires |fs| >= 1
    requires forall i :: 0 <= i < |fs| ==> sep !in fs[i]
    ensures Split(Join(fs, sep), sep) == fs
    decreases |fs|
  {
    if |fs| == 1 {
      SplitWithoutSep(fs[0], sep);
    } else {
      SplitJoin(fs[1..], sep);
      SplitCons(fs[0], Join(fs[1..], sep), sep);
      assert [fs[0]] + fs[1..] == fs;
    }
  }

  /** A string splits into a single field exactly when it holds no separator. */
  lemma SplitSingleIff(s: string, sep: char)
    ensures |Split(s, sep)| == 1 <==> sep !in s
  {
    if sep !in s {
      SplitWithoutSep(s, sep);
    }
  }

  /** `s.split(sep)[1]`: the second field, `undefined` when there is no separator. */
  function SecondField(s: string, sep: char): (r: Option<string>)
    ensures r.None? <==> sep !in s
    ensures r.Some? ==> |Split(s, sep)| >= 2 && r.value == Split(s, sep)[1]
    ensures r.Some? ==> sep !in r.value
  {
    SplitSingleIff(s, sep);
    var fs := Split(s, sep);
    if |fs| >= 2 then Some(fs[1]) else None
  }

  /** The second field is the text between the first separator and the next
      one, or the end: `a <sep> b` and `a <sep> b <sep> ...` both give `b`. */
  lemma SecondFieldBetweenSeparators(a: string, b: string, rest: string, sep: char)
    requires sep !in a && sep !in b
    requires rest == [] || rest[0] == sep
    ensures SecondField(a + [sep] + b + rest, sep) == Some(b)
  {
    assert a + [sep] + b + rest == a + [sep] + (b + rest);
    SplitCons(a, b + rest, sep);
    if rest == [] {
      assert b + rest == b;
      SplitWithoutSep(b, sep);
    } else {
      assert b + rest == b + [sep] + rest[1..];
      SplitCons(b, rest[1..], sep);
    }
  }

  /** `s.split(sep)[0]`: everything before the first separator. */
  function FirstField(s: string, sep: char): (r: string)
    ensures sep !in r
    ensures |r| <= |s| && r == s[..|r|]
    ensures |r| < |s| ==> s[|r|] == sep
  {
    var fs := Split(s, sep);
    if |fs| == 1 then fs[0]
    else
      assert Join(fs, sep) == fs[0] + ([sep] + Join(fs[1..], sep));
      fs[0]
  }

  /** Code-point (binary) order of strings, the order MongoDB sorts string fields in. */
  predicate StrLe(a: string, b: string)
    decreases |a|
  {
    if a == [] then true
    else if b == [] then false
    else a[0] < b[0] || (a[0] == b[0] && StrLe(a[1..], b[1..]))
  }

  lemma {:induction false} StrLeTotal(a: string, b: string)
    ensures StrLe(a, b) || StrLe(b, a)
    decreases |a|
  {
    if a != [] && b != [] && a[0] == b[0] {
      StrLeTotal(a[1..], b[1..]);
    }
  }

  lemma {:induction false} StrLeTransitive(a: string, b: string, c: string)
    requires StrLe(a, b) && StrLe(b, c)
    ensures StrLe(a, c)
    decreases |a|
  {
    if a != [] && b != [] && c != [] && a[0] == b[0] && b[0] == c[0] {
      StrLeTransitive(a[1..], b[1..], c[1..]);
    }
  }

  lemma {:induction false} StrLeAntisymmetric(a: string, b: string)
    requires StrLe(a, b) && StrLe(b, a)
    ensures a == b
    decreases |a|
  {
    if a != [] {
      StrLeAntisymmetric(a[1..], b[1..]);
      assert a == [a[0]] + a[1..];
      assert b == [b[0]] + b[1..];
    }
  }
}

=== FILE: timetable_routes.dfy ===
/** The timetable handlers (backend/routes/timetable.js, mounted at
    /api/timetable). Listing and adding are public and act for an account
    picked by email; update and the delete-by-slot run behind `auth`.
    Of the two `DELETE /:id` handlers only the first, public one is ever
    reached; the owner-scoped one is modelled as `DeleteOwnedClass`. */
module TimetableRoutes {
  import opened Base
  import opened Strings
  import opened Collection
  import opened Users
  import opened Tokens
  import opened AuthGate
  import opened TimetableSchema

  const NoUserReply := Reply(BadRequest, "No user found. Please create a user first.")
  const OccupiedReply := Reply(BadRequest, "Time slot already occupied")
  const AddedReply := Reply(Created, "Class added successfully")
  const NotFoundReply := Reply(NotFound, "Class not found")
  const DeletedReply := Reply(OK, "Class deleted successfully")
  const UpdatedReply := Reply(OK, "Class updated successfully")
  const ListedReply := Reply(OK, "")

  /** The account the public handlers act for: by `userEmail` (default
      `student@test.com`), else any student. */
  function TargetUser(users: seq<User>, userEmail: Option<string>): Option<User>
  {
    ResolveUser(users, userEmail, "student@test.com", "student")
  }

  /** The user has a class at this (day, time), comparing the request's raw strings. */
  predicate Occupied(items: seq<Entry>, user: UserId, day: string, time: string)
  {
    exists j :: 0 <= j < |items| && items[j].user == user && DayName(items[j].day) == day && items[j].time == time
  }

  /** `GET /`: the target user's classes sorted by day name, then time. */
  function ListClasses(users: seq<User>, st: Store<Entry>, userEmail: Option<string>): (r: Listing<Entry>)
    ensures TargetUser(users, userEmail).None? ==> r == Listing(NoUserReply, [])
    ensures TargetUser(users, userEmail).Some? ==>
              (var u := TargetUser(users, userEmail).value;
               && r.reply == ListedReply
               && (forall e :: multiset(r.items)[e] == if e.user == u.id then multiset(st.items)[e] else 0)
               && Sorted(r.items, SlotOrder))
  {
    match TargetUser(users, userEmail)
    case None => Listing(NoUserReply, [])
    case Some(u) =>
      SlotOrderIsTotalPreorder();
      Listing(ListedReply, SortBy(Filter(st.items, (e: Entry) => e.user == u.id), SlotOrder))
  }

  datatype AddRequest = AddRequest(
    day: string, time: string, subject: string,
    room: Option<string>, teacher: Option<string>, userEmail: Option<string>)

  /** `POST /`: resolve the account, refuse an occupied slot, validate, insert.
      A duplicate-key error from the unique index maps to the same 400 as the
      occupied-slot check; any other save failure is a 500. */
  function AddClass(users: seq<User>, st: Store<Entry>, req: AddRequest): (r: Step<Entry>)
    ensures TargetUser(users, req.userEmail).None? ==> r == Step(NoUserReply, st)
    ensures TargetUser(users, req.userEmail).Some?
              && Occupied(st.items, TargetUser(users, req.userEmail).value.id, req.day, req.time) ==>
              r == Step(OccupiedReply, st)
    ensures r.reply.status == Created <==>
              (&& TargetUser(users, req.userEmail).Some?
               && !Occupied(st.items, TargetUser(users, req.userEmail).value.id, req.day, req.time)
               && ParseDay(req.day).Some? && req.time != "" && Trim(req.subject) != "")
    ensures r.reply.status != Created ==> r.store == st
    ensures r.reply.status == Created ==>
              (&& r.reply == AddedReply
               && |r.store.items| == |st.items| + 1 && r.store.clock == st.clock + 1
               && r.store.items[..|st.items|] == st.items
               && var e := r.store.items[|st.items|];
                  && e.id == st.clock && e.createdAt == st.clock
                  && e.user == TargetUser(users, req.userEmail).value.id
                  && DayName(e.day) == req.day && e.time == req.time
                  && e.subject == Trim(req.subject)
                  && e.room == TrimOpt(req.room) && e.teacher == TrimOpt(req.teacher))
  {
    match TargetUser(users, req.userEmail)
    case None => Step(NoUserReply, st)
    case Some(u) =>
      if Occupied(st.items, u.id, req.day, req.time) then Step(OccupiedReply, st)
      else
        match Build(st.clock, u.id, req.day, req.time, req.subject, req.room, req.teacher)
        case None => Step(ServerErrorReply, st)
        case Some(e) =>
          match InsertIndexed(st, e)
          case None => Step(OccupiedReply, st)
          case Some(st') =>
            assert st'.items[..|st.items|] == st.items;
            Step(AddedReply, st')
  }

  /** In a sequential run the occupied-slot check already implies the unique
      index accepts the insert, so the duplicate-key branch is never taken. */
  lemma PrecheckImpliesIndexAccepts(st: Store<Entry>, e: Entry)
    requires !Occupied(st.items, e.user, DayName(e.day), e.time)
    ensures InsertIndexed(st, e).Some?
  {
  }

  /** Adding keeps the collection invariant, in particular one class per slot. */
  lemma AddClassPreservesValid(users: seq<User>, st: Store<Entry>, req: AddRequest)
    requires Valid(st)
    ensures Valid(AddClass(users, st, req).store)
  {
    var r := AddClass(users, st, req);
    if r.reply.status == Created {
      var u := TargetUser(users, req.userEmail).value;
      var e := Build(st.clock, u.id, req.day, req.time, req.subject, req.room, req.teacher).value;
      assert r.store == Store(st.items + [e], st.clock + 1);
      IdsFreshAppend(st, e, Id);
      PrecheckImpliesIndexAccepts(st, e);
      UniqueAppend(st.items, e, Slot);
    }
  }

  /** Adding the same class twice: the second request is refused as occupied
      and changes nothing. */
  lemma AddTwiceSecondRefused(users: seq<User>, st: Store<Entry>, req: AddRequest)
    requires AddClass(users, st, req).reply.status == Created
    ensures var st' := AddClass(users, st, req).store;
            AddClass(users, st', req) == Step(OccupiedReply, st')
  {
    var st' := AddClass(users, st, req).store;
    var e := st'.items[|st.items|];
    assert Occupied(st'.items, e.user, req.day, req.time);
  }

  /** `DELETE /:id`, the reachable one: public, by id alone. */
  function DeleteClassById(st: Store<Entry>, id: nat): (r: Step<Entry>)
    ensures r.reply == NotFoundReply <==> forall j :: 0 <= j < |st.items| ==> st.items[j].id != id
    ensures r.reply != NotFoundReply ==>
              (&& r.reply == DeletedReply && r.store.clock == st.clock
               && exists k :: 0 <= k < |st.items| && st.items[k].id == id && r.store.items == RemoveAt(st.items, k))
    ensures r.reply == NotFoundReply ==> r.store == st
  {
    match FirstIndex(st.items, (e: Entry) => e.id == id)
    case None => Step(NotFoundReply, st)
    case Some(k) => Step(DeletedReply, Store(RemoveAt(st.items, k), st.clock))
  }

  /** After a delete by id in a valid collection, no entry has that id and the invariant holds. */
  lemma DeleteClassByIdPreservesValid(st: Store<Entry>, id: nat)
    requires Valid(st)
    ensures Valid(DeleteClassById(st, id).store)
    ensures forall j :: 0 <= j < |DeleteClassById(st, id).store.items| ==> DeleteClassById(st, id).store.items[j].id != id
  {
    match FirstIndex(st.items, (e: Entry) => e.id == id)
    case None =>
    case Some(k) =>
      ValidRemove(st, k);
      IdsFreshRemove(st, k, Id);
  }

  datatype UpdateRequest = UpdateRequest(subject: Option<string>, room: Option<string>, teacher: Option<string>)

  /** The entry after `field = new || old` on the three editable paths; the
      schema setters trim what is assigned. */
  function Edited(prev: Entry, req: UpdateRequest): Entry
  {
    prev.(subject := Trim(if Truthy(req.subject) then req.subject.value else prev.subject),
         room := TrimOpt(if Truthy(req.room) then req.room else prev.room),
         teacher := TrimOpt(if Truthy(req.teacher) then req.teacher else prev.teacher))
  }

  /** The caller's entry with this id. */
  predicate OwnedBy(e: Entry, id: nat, user: UserId)
  {
    e.id == id && e.user == user
  }

  /** `k` is where `findOne({ _id: id, user })` stops: the first of the caller's entries with this id. */
  predicate FirstOwned(items: seq<Entry>, id: nat, user: UserId, k: int)
  {
    0 <= k < |items| && OwnedBy(items[k], id, user) && forall j :: 0 <= j < k ==> !OwnedBy(items[j], id, user)
  }

  /** `PUT /:id` behind `auth`, given the hydrated `req.user`. A missing
      user makes `req.user._id` throw: a 500. Only the caller's own entry
      is found; a subject that trims to nothing fails validation (500). */
  function UpdateClass(st: Store<Entry>, user: Option<Principal>, id: nat, req: UpdateRequest): (r: Step<Entry>)
    ensures user.None? ==> r == Step(ServerErrorReply, st)
    ensures user.Some? ==>
              (r.reply == NotFoundReply <==> forall j :: 0 <= j < |st.items| ==> !OwnedBy(st.items[j], id, user.value.id))
    ensures user.Some? ==>
              (r.reply == UpdatedReply <==>
                 exists k :: FirstOwned(st.items, id, user.value.id, k) && Edited(st.items[k], req).subject != "")
    ensures r.reply in {UpdatedReply, NotFoundReply, ServerErrorReply}
    ensures r.reply != UpdatedReply ==> r.store == st
    ensures r.reply == UpdatedReply ==>
              (&& user.Some? && r.store.clock == st.clock && |r.store.items| == |st.items|
               && exists k :: 0 <= k < |st.items| && OwnedBy(st.items[k], id, user.value.id)
                    && r.store.items == st.items[k := Edited(st.items[k], req)]
                    && Edited(st.items[k], req).subject != "")
  {
    match user
    case None => Step(ServerErrorReply, st)
    case Some(p) =>
      match FirstIndex(st.items, (e: Entry) => OwnedBy(e, id, p.id))
      case None => Step(NotFoundReply, st)
      case Some(k) =>
        assert FirstOwned(st.items, id, p.id, k);
        assert forall k' :: FirstOwned(st.items, id, p.id, k') ==> k' == k;
        var e' := Edited(st.items[k], req);
        if e'.subject == "" then Step(ServerErrorReply, st)
        else Step(UpdatedReply, Store(st.items[k := e'], st.clock))
  }

  /** An edit never touches the slot, the id, the owner or the creation stamp;
      on a conforming entry a field that is missing or empty in the request
      keeps its old value, and a given one is stored trimmed. */
  lemma EditKeepsSlotAndOmittedFields(prev: Entry, req: UpdateRequest)
    requires Conforms(prev)
    ensures var e := Edited(prev, req);
            && Slot(e) == Slot(prev) && e.id == prev.id && e.createdAt == prev.createdAt
            && e.subject == (if Truthy(req.subject) then Trim(req.subject.value) else prev.subject)
            && e.room == (if Truthy(req.room) then Some(Trim(req.room.value)) else prev.room)
            && e.teacher == (if Truthy(req.teacher) then Some(Trim(req.teacher.value)) else prev.teacher)
  {
    var e := Edited(prev, req);
    assert e.subject == (if Truthy(req.subject) then Trim(req.subject.value) else prev.subject) by {
      TrimOfTrimmed(prev.subject);
    }
    assert e.room == (if Truthy(req.room) then Some(Trim(req.room.value)) else prev.room) by {
      if prev.room.Some? { TrimOfTrimmed(prev.room.value); }
    }
    assert e.teacher == (if Truthy(req.teacher) then Some(Trim(req.teacher.value)) else prev.teacher) by {
      if prev.teacher.Some? { TrimOfTrimmed(prev.teacher.value); }
    }
  }

  /** With unique ids, the owner's update of an entry takes effect whenever
      the edited subject is non-empty. */
  lemma OwnerUpdateTakesEffect(st: Store<Entry>, p: Principal, k: nat, req: UpdateRequest)
    requires Valid(st) && k < |st.items| && st.items[k].user == p.id
    requires Edited(st.items[k], req).subject != ""
    ensures UpdateClass(st, Some(p), st.items[k].id, req).reply == UpdatedReply
  {
    forall j | 0 <= j < k
      ensures !OwnedBy(st.items[j], st.items[k].id, p.id)
    {
      assert Id(st.items[j]) != Id(st.items[k]);
    }
    assert FirstOwned(st.items, st.items[k].id, p.id, k);
  }

  lemma UpdateClassPreservesValid(st: Store<Entry>, user: Option<Principal>, id: nat, req: UpdateRequest)
    requires Valid(st)
    ensures Valid(UpdateClass(st, user, id, req).store)
  {
    if user.Some? {
      match FirstIndex(st.items, (e: Entry) => OwnedBy(e, id, user.value.id))
      case None =>
      case Some(k) =>
        var e := Edited(st.items[k], req);
        if e.subject != "" {
          EditKeepsSlotAndOmittedFields(st.items[k], req);
          ValidReplace(st, k, e);
        }
    }
  }

  /** The shadowed `DELETE /:id` behind `auth`: deletes only the caller's own entry. */
  function DeleteOwnedClass(st: Store<Entry>, user: Option<Principal>, id: nat): (r: Step<Entry>)
    ensures user.None? ==> r == Step(ServerErrorReply, st)
    ensures user.Some? ==>
              (r.reply == NotFoundReply <==> forall j :: 0 <= j < |st.items| ==> !OwnedBy(st.items[j], id, user.value.id))
    ensures user.Some? && (exists k :: 0 <= k < |st.items| && OwnedBy(st.items[k], id, user.value.id)) ==>
              r.reply == DeletedReply
    ensures r.reply in {DeletedReply, NotFoundReply, ServerErrorReply}
    ensures r.reply != DeletedReply ==> r.store == st
    ensures r.reply == DeletedReply ==>
              (&& user.Some? && r.store.clock == st.clock
               && exists k :: 0 <= k < |st.items| && OwnedBy(st.items[k], id, user.value.id)
                    && r.store.items == RemoveAt(st.items, k))
  {
    match user
    case None => Step(ServerErrorReply, st)
    case Some(p) =>
      match FirstIndex(st.items, (e: Entry) => OwnedBy(e, id, p.id))
      case None => Step(NotFoundReply, st)
      case Some(k) => Step(DeletedReply, Store(RemoveAt(st.items, k), st.clock))
  }

  /** The caller's entry at this (day, time). */
  predicate AtSlot(e: Entry, user: UserId, day: string, time: string)
  {
    e.user == user && DayName(e.day) == day && e.time == time
  }

  /** `DELETE /slot/:day/:time` behind `auth`: removes the caller's class in that slot. */
  function DeleteClassBySlot(st: Store<Entry>, user: Option<Principal>, day: string, time: string): (r: Step<Entry>)
    ensures user.None? ==> r == Step(ServerErrorReply, st)
    ensures user.Some? ==> (r.reply == NotFoundReply <==> !Occupied(st.items, user.value.id, day, time))
    ensures user.Some? && Occupied(st.items, user.value.id, day, time) ==> r.reply == DeletedReply
    ensures r.reply in {DeletedReply, NotFoundReply, ServerErrorReply}
    ensures r.reply != DeletedReply ==> r.store == st
    ensures r.reply == DeletedReply ==>
              (&& user.Some? && r.store.clock == st.clock
               && exists k :: 0 <= k < |st.items| && AtSlot(st.items[k], user.value.id, day, time)
                    && r.store.items == RemoveAt(st.items, k))
  {
    match user
    case None => Step(ServerErrorReply, st)
    case Some(p) =>
      match FirstIndex(st.items, (e: Entry) => AtSlot(e, p.id, day, time))
      case None =>
        Step(NotFoundReply, st)
      case Some(k) => Step(DeletedReply, Store(RemoveAt(st.items, k), st.clock))
  }

  /** In a valid collection a delete by slot frees that slot and keeps the invariant. */
  lemma DeleteClassBySlotFreesSlot(st: Store<Entry>, user: Option<Principal>, day: string, time: string)
    requires Valid(st)
    ensures Valid(DeleteClassBySlot(st, user, day, time).store)
    ensures user.Some? ==> !Occupied(DeleteClassBySlot(st, user, day, time).store.items, user.value.id, day, time)
  {
    if user.Some? {
      match FirstIndex(st.items, (e: Entry) => AtSlot(e, user.value.id, day, time))
      case None =>
      case Some(k) =>
        var rest := RemoveAt(st.items, k);
        ValidRemove(st, k);
        if Occupied(rest, user.value.id, day, time) {
          var j :| 0 <= j < |rest| && AtSlot(rest[j], user.value.id, day, time);
          ParseDayName(rest[j].day);
          ParseDayName(st.items[k].day);
        }
    }
  }

  lemma DeleteOwnedClassPreservesValid(st: Store<Entry>, user: Option<Principal>, id: nat)
    requires Valid(st)
    ensures Valid(DeleteOwnedClass(st, user, id).store)
  {
    var r := DeleteOwnedClass(st, user, id);
    if r.reply == DeletedReply {
      var k :| 0 <= k < |st.items| && OwnedBy(st.items[k], id, user.value.id)
                && r.store.items == RemoveAt(st.items, k);
      ValidRemove(st, k);
    }
  }

  /** The update route: `auth`, then the handler. A refused request changes nothing. */
  function UpdateRoute(st: Store<Entry>, users: seq<User>, crypto: Crypto, header: Option<string>,
                       id: nat, req: UpdateRequest): (r: Step<Entry>)
    ensures Auth(header, crypto, users).Denied? ==> r == Step(Auth(header, crypto, users).reply, st)
    ensures r.store != st ==> Auth(header, crypto, users).Admitted? && Auth(header, crypto, users).user.Some?
  {
    match Auth(header, crypto, users)
    case Denied(reply) => Step(reply, st)
    case Admitted(u) => UpdateClass(st, u, id, req)
  }

  /** The delete-by-slot route: `auth`, then the handler. */
  function DeleteSlotRoute(st: Store<Entry>, users: seq<User>, crypto: Crypto, header: Option<string>,
                           day: string, time: string): (r: Step<Entry>)
    ensures Auth(header, crypto, users).Denied? ==> r == Step(Auth(header, crypto, users).reply, st)
    ensures r.store != st ==> Auth(header, crypto, users).Admitted? && Auth(header, crypto, users).user.Some?
  {
    match Auth(header, crypto, users)
    case Denied(reply) => Step(reply, st)
    case Admitted(u) => DeleteClassBySlot(st, u, day, time)
  }

  /** The shadowed owner-scoped delete route, had it been reachable. */
  function DeleteOwnedRoute(st: Store<Entry>, users: seq<User>, crypto: Crypto, header: Option<string>,
                            id: nat): (r: Step<Entry>)
    ensures Auth(header, crypto, users).Denied? ==> r == Step(Auth(header, crypto, users).reply, st)
    ensures r.store != st ==> Auth(header, crypto, users).Admitted? && Auth(header, crypto, users).user.Some?
  {
    match Auth(header, crypto, users)
    case Denied(reply) => Step(reply, st)
    case Admitted(u) => DeleteOwnedClass(st, u, id)
  }

  /** One request to a reachable timetable route. */
  datatype Request =
    | Add(add: AddRequest)
    | DeleteById(id: nat)
    | Update(header: Option<string>, updId: nat, upd: UpdateRequest)
    | DeleteSlot(slotHeader: Option<string>, day: string, time: string)

  /** The add and the delete by id are public; the update and the delete by
      slot sit behind `auth`, whose refusal writes nothing. */
  function Handle(st: Store<Entry>, users: seq<User>, crypto: Crypto, req: Request): (r: Step<Entry>)
    ensures r.store.clock >= st.clock
    ensures req.Update? && Auth(req.header, crypto, users).Denied? ==>
              r == Step(Auth(req.header, crypto, users).reply, st)
    ensures req.DeleteSlot? && Auth(req.slotHeader, crypto, users).Denied? ==>
              r == Step(Auth(req.slotHeader, crypto, users).reply, st)
  {
    match req
    case Add(a) => AddClass(users, st, a)
    case DeleteById(id) => DeleteClassById(st, id)
    case Update(h, id, u) => UpdateRoute(st, users, crypto, h, id, u)
    case DeleteSlot(h, d, t) => DeleteSlotRoute(st, users, crypto, h, d, t)
  }

  /** The store after a sequence of requests; the id clock never goes back. */
  function Run(st: Store<Entry>, users: seq<User>, crypto: Crypto, reqs: seq<Request>): (r: Store<Entry>)
    ensures r.clock >= st.clock
    decreases |reqs|
  {
    if reqs == [] then st else Run(Handle(st, users, crypto, reqs[0]).store, users, crypto, reqs[1..])
  }

  /** Every reachable timetable route keeps the invariant. */
  lemma HandlePreservesValid(st: Store<Entry>, users: seq<User>, crypto: Crypto, req: Request)
    requires Valid(st)
    ensures Valid(Handle(st, users, crypto, req).store)
  {
    match req
    case Add(a) => AddClassPreservesValid(users, st, a);
    case DeleteById(id) => DeleteClassByIdPreservesValid(st, id);
    case Update(h, id, u) =>
      if Auth(h, crypto, users).Admitted? {
        UpdateClassPreservesValid(st, Auth(h, crypto, users).user, id, u);
      }
    case DeleteSlot(h, d, t) =>
      if Auth(h, crypto, users).Admitted? {
        DeleteClassBySlotFreesSlot(st, Auth(h, crypto, users).user, d, t);
      }
  }

  /** The main invariant: starting from a valid timetable, any sequence of
      requests leaves at most one class per (user, day, time), unique ids
      and schema-conforming entries. */
  lemma {:induction false} RunPreservesValid(st: Store<Entry>, users: seq<User>, crypto: Crypto, reqs: seq<Request>)
    requires Valid(st)
    ensures Valid(Run(st, users, crypto, reqs))
    ensures UniqueBy(Run(st, users, crypto, reqs).items, Slot)
    decreases |reqs|
  {
    if reqs != [] {
      HandlePreservesValid(st, users, crypto, reqs[0]);
      RunPreservesValid(Handle(st, users, crypto, reqs[0]).store, users, crypto, reqs[1..]);
    }
  }

  lemma EmptyTimetableValid(clock: nat)
    ensures Valid(Store([], clock))
  {
  }
}

=== FILE: timetable_schema.dfy ===
/** The Timetable schema (backend/models/Timetable.js): a weekly class slot per
    user, the validation `save()` applies, and the unique index on
    (user, day, time). */
module TimetableSchema {
  import opened Base
  import opened Strings
  import opened Collection
  import opened Users

  /** The `day` enum: Monday through Saturday; there is no Sunday. */
  datatype Day = Monday | Tuesday | Wednesday | Thursday | Friday | Saturday

  function DayName(d: Day): string
  {
    match d
    case Monday => "Monday"
    case Tuesday => "Tuesday"
    case Wednesday => "Wednesday"
    case Thursday => "Thursday"
    case Friday => "Friday"
    case Saturday => "Saturday"
  }

  /** Enum validation of a `day` string: succeeds exactly on the six names. */
  function ParseDay(s: string): (r: Option<Day>)
    ensures r.Some? ==> DayName(r.value) == s
    ensures r.None? <==> forall d: Day :: DayName(d) != s
  {
    if s == "Monday" then Some(Monday)
    else if s == "Tuesday" then Some(Tuesday)
    else if s == "Wednesday" then Some(Wednesday)
    else if s == "Thursday" then Some(Thursday)
    else if s == "Friday" then Some(Friday)
    else if s == "Saturday" then Some(Saturday)
    else None
  }

  lemma ParseDayName(d: Day)
    ensures ParseDay(DayName(d)) == Some(d)
  {
  }

  /** A stored timetable document. `day` is the enum value; `time` is free text. */
  datatype Entry = Entry(
    id: nat, user: UserId, day: Day, time: string,
    subject: string, room: Option<string>, teacher: Option<string>,
    createdAt: nat)

  /** The key of the unique index `{ user: 1, day: 1, time: 1 }`. */
  datatype SlotKey = SlotKey(user: UserId, day: Day, time: string)

  function Slot(e: Entry): SlotKey
  {
    SlotKey(e.user, e.day, e.time)
  }

  function Id(e: Entry): nat
  {
    e.id
  }

  /** `trim: true` on an optional path. */
  function TrimOpt(o: Option<string>): (r: Option<string>)
    ensures r.Some? <==> o.Some?
    ensures r.Some? ==> IsTrimmed(r.value) && r.value == Trim(o.value)
  {
    match o
    case None => None
    case Some(v) => Some(Trim(v))
  }

  /** What the schema guarantees of every stored entry: `time` and `subject`
      are present and non-empty (Mongoose `required` rejects `''`), and
      `subject`, `room` and `teacher` are stored trimmed. */
  predicate Conforms(e: Entry)
  {
    && e.time != ""
    && e.subject != "" && IsTrimmed(e.subject)
    && (e.room.Some? ==> IsTrimmed(e.room.value))
    && (e.teacher.Some? ==> IsTrimmed(e.teacher.value))
  }

  /** The timetable collection invariant: every entry conforms to the schema,
      ids are unique and older than the clock, and at most one entry exists
      per (user, day, time). */
  predicate Valid(st: Store<Entry>)
  {
    && IdsFresh(st, Id)
    && UniqueBy(st.items, Slot)
    && forall j :: 0 <= j < |st.items| ==> Conforms(st.items[j])
  }

  /** Removing any entry keeps the invariant. */
  lemma ValidRemove(st: Store<Entry>, k: nat)
    requires Valid(st) && k < |st.items|
    ensures Valid(Store(RemoveAt(st.items, k), st.clock))
    ensures !HasKey(RemoveAt(st.items, k), Slot, Slot(st.items[k]))
  {
    IdsFreshRemove(st, k, Id);
    UniqueRemove(st.items, k, Slot);
  }

  /** Replacing an entry by a conforming one with the same id and slot keeps the invariant. */
  lemma ValidReplace(st: Store<Entry>, k: nat, e: Entry)
    requires Valid(st) && k < |st.items| && Conforms(e)
    requires e.id == st.items[k].id && Slot(e) == Slot(st.items[k])
    ensures Valid(Store(st.items[k := e], st.clock))
  {
    IdsFreshReplace(st, k, e, Id, st.clock);
    UniqueReplace(st.items, k, e, Slot);
  }

  /** `new Timetable({ user, day, time, subject, room, teacher })` and the
      validation of `save()`: trimming happens on assignment, then the day
      enum and the required paths are checked. `None` is a ValidationError. */
  function Build(id: nat, user: UserId, day: string, time: string, subject: string,
                 room: Option<string>, teacher: Option<string>): (r: Option<Entry>)
    ensures r.Some? <==> ParseDay(day).Some? && time != "" && Trim(subject) != ""
    ensures r.Some? ==> Conforms(r.value)
    ensures r.Some? ==>
              (&& r.value.id == id && r.value.createdAt == id && r.value.user == user
               && DayName(r.value.day) == day && r.value.time == time
               && r.value.subject == Trim(subject)
               && r.value.room == TrimOpt(room) && r.value.teacher == TrimOpt(teacher))
  {
    match ParseDay(day)
    case None => None
    case Some(d) =>
      if time == "" || Trim(subject) == "" then None
      else Some(Entry(id, user, d, time, Trim(subject), TrimOpt(room), TrimOpt(teacher), id))
  }

  /** Inserting through the unique index: `None` is the duplicate-key error
      (code 11000) the database raises when the slot is already taken. */
  function InsertIndexed(st: Store<Entry>, e: Entry): (r: Option<Store<Entry>>)
    ensures r.None? <==> HasKey(st.items, Slot, Slot(e))
    ensures r.Some? ==> r.value.items == st.items + [e]
  {
    if HasKey(st.items, Slot, Slot(e)) then None
    else Some(Store(st.items + [e], st.clock + 1))
  }

  /** The order of `.sort({ day: 1, time: 1 })`: by the day's NAME as a
      string, then by time as a string. */
  predicate SlotOrder(a: Entry, b: Entry)
  {
    var da, db := DayName(a.day), DayName(b.day);
    (da != db && StrLe(da, db)) || (da == db && StrLe(a.time, b.time))
  }

  lemma SlotOrderIsTotalPreorder()
    ensures TotalPreorder(SlotOrder)
  {
    forall a: Entry, b: Entry
      ensures SlotOrder(a, b) || SlotOrder(b, a)
    {
      StrLeTotal(DayName(a.day), DayName(b.day));
      StrLeTotal(a.time, b.time);
    }
    forall a: Entry, b: Entry, c: Entry | SlotOrder(a, b) && SlotOrder(b, c)
      ensures SlotOrder(a, c)
    {
      var da, db, dc := DayName(a.day), DayName(b.day), DayName(c.day);
      if da == db && db == dc {
        StrLeTransitive(a.time, b.time, c.time);
      } else if da != db && db != dc {
        StrLeTransitive(da, db, dc);
        if da == dc {
          StrLeAntisymmetric(da, db);
        }
      }
    }
  }

  /** Days are ordered as words, not as the week runs: a Friday class is
      listed before a Monday class, and Saturday before Thursday. */
  lemma DaysSortAsWords(a: Entry, b: Entry, c: Entry, d: Entry)
    requires a.day == Friday && b.day == Monday
    requires c.day == Saturday && d.day == Thursday
    ensures SlotOrder(a, b) && !SlotOrder(b, a)
    ensures SlotOrder(c, d) && !SlotOrder(d, c)
  {
  }
}

=== FILE: tokens.dfy ===
/** JSON Web Tokens and passwords, as uninterpreted collaborators. The model
    never looks inside a token: it only records what is signed, and treats
    verification (signature and expiry under the process secret) and password
    comparison as oracles handed in by the caller. */
module Tokens {
  import opened Base
  import opened Users

  /** The claims every token of this system carries: `{ userId, email, role }`. */
  datatype Claims = Claims(userId: UserId, email: string, role: string)

  /** `expiresIn: '1h'`, in seconds. */
  const OneHour: nat := 3600

  /** What `jwt.sign(claims, secret, { expiresIn })` is asked to sign. */
  datatype SignRequest = SignRequest(claims: Claims, expiresInSeconds: nat)

  /** The cryptographic collaborators: `jwt.sign` and `jwt.verify` under the
      configured secret (verification failing also covers expiry and
      malformed tokens), the User model's password hashing, and
      `comparePassword(plain)` against a stored hash. */
  datatype Crypto = Crypto(
    sign: SignRequest -> string,
    verify: string -> Option<Claims>,
    hash: string -> string,
    passwordMatches: (string, string) -> bool)

  /** The claims issued for an account. */
  function ClaimsOf(u: User): Claims
  {
    Claims(u.id, u.email, u.role)
  }

  /** The token both the register and the login handler issue for an account. */
  function Issue(crypto: Crypto, u: User): string
  {
    crypto.sign(SignRequest(ClaimsOf(u), OneHour))
  }

  /** Assumptions about the oracles a few end-to-end lemmas need: a fresh
      token verifies to the claims it was signed with and is a non-empty
      string without spaces (a JWT is three base64url parts joined by dots),
      and a password matches its own hash. */
  ghost predicate WellBehaved(crypto: Crypto)
  {
    && (forall req :: crypto.verify(crypto.sign(req)) == Some(req.claims))
    && (forall req :: crypto.sign(req) != "" && ' ' !in crypto.sign(req))
    && (forall p :: crypto.passwordMatches(p, crypto.hash(p)))
  }
}

=== FILE: users.dfy ===
/** User accounts as the route handlers see them, and the account lookups they
    share. The User schema itself is not part of this model: a role is an
    arbitrary string and an account is whatever the handlers read from it. */
module Users {
  import opened Base
  import opened Collection

  type UserId = nat

  /** A stored account. `passwordHash` is whatever the User model stores in
      place of the plaintext password. */
  datatype User = User(id: UserId, name: Option<string>, email: string, passwordHash: string, role: string)

  /** `req.user` as the hydrating gate attaches it: the account loaded with
      `.select('-password')`, i.e. without its password hash. */
  datatype Principal = Principal(id: UserId, name: Option<string>, email: string, role: string)

  function View(u: User): Principal
  {
    Principal(u.id, u.name, u.email, u.role)
  }

  /** `User.findById(id)`. */
  function FindById(users: seq<User>, id: UserId): (r: Option<User>)
    ensures r.Some? ==> r.value in users && r.value.id == id
    ensures r.None? <==> forall j :: 0 <= j < |users| ==> users[j].id != id
  {
    FindFirst(users, (u: User) => u.id == id)
  }

  /** Some account has this email, whatever its role. */
  predicate EmailTaken(users: seq<User>, email: string)
  {
    exists j :: 0 <= j < |users| && users[j].email == email
  }

  /** Some account has this role. */
  predicate RoleExists(users: seq<User>, role: string)
  {
    exists j :: 0 <= j < |users| && users[j].role == role
  }

  /** The fallback chain several public handlers use to pick the account a
      request acts for: `User.findOne({ email: requested || fallbackEmail })`,
      then `User.findOne({ role: fallbackRole })`, else nobody (a 400). */
  function ResolveUser(users: seq<User>, requested: Option<string>, fallbackEmail: string, fallbackRole: string): (r: Option<User>)
    ensures r.Some? ==> r.value in users
    ensures EmailTaken(users, OrElse(requested, fallbackEmail)) ==>
              r.Some? && r.value.email == OrElse(requested, fallbackEmail)
    ensures !EmailTaken(users, OrElse(requested, fallbackEmail)) && r.Some? ==>
              r.value.role == fallbackRole
    ensures r.None? <==> !EmailTaken(users, OrElse(requested, fallbackEmail)) && !RoleExists(users, fallbackRole)
  {
    var email := OrElse(requested, fallbackEmail);
    match FindFirst(users, (u: User) => u.email == email)
    case Some(u) => Some(u)
    case None => FindFirst(users, (u: User) => u.role == fallbackRole)
  }

  /** A request that names no email (or an empty one) acts for the fallback
      account when it exists, whatever other accounts there are. */
  lemma ResolveDefaultsToFallbackEmail(users: seq<User>, requested: Option<string>, fallbackEmail: string, fallbackRole: string, j: nat)
    requires !Truthy(requested)
    requires j < |users| && users[j].email == fallbackEmail
    ensures ResolveUser(users, requested, fallbackEmail, fallbackRole).Some?
    ensures ResolveUser(users, requested, fallbackEmail, fallbackRole).value.email == fallbackEmail
  {
    assert EmailTaken(users, OrElse(requested, fallbackEmail));
  }
}
